=== FILE: README.md ===
# kover scene engine in Dafny

`kover` reads a text scene of buildings, houses and antennas, checks it, and
derives facts from it. This project models its scene engine, which is
`src/scene.c` together with the token validators of `src/validation.c`. The
model has these parts:

- **Validation** covers the three token validators, `is_valid_id`,
  `is_valid_integer` and `is_valid_positive_integer`. Each is an index loop
  proved to accept exactly one regular language: `[A-Za-z_][A-Za-z0-9_]*`,
  `0|-?[1-9][0-9]*` and `[1-9][0-9]*`.
- **Decimal** is the reading of a valid integer token, as `atoi` does it, and
  its canonical rendering. The valid-integer tokens are exactly the canonical
  decimal spellings.
- **IdOrder** is the order `strcmp` puts on identifiers. It is proved a strict
  total order.
- **Entities** holds the records of `src/scene.h`, plus typed errors that stand
  in for the `report_error_*` calls, each of which prints and exits.
- **Geometry** holds the interval, rectangle and antenna predicates. It also
  has the first-pair search run by the `validate_*` loops, and the bounding
  box as a fold.
- **Store** is the sorted, identifier-unique insert of `add_building` and
  `add_antenna`. It exists as a function on sequences and as an in-place
  shift on an array.
- **Tokenizer** is `parse_line`, which splits a line on spaces.
- **Decoders** is `load_building_from_parsed_line`,
  `load_house_from_parsed_line` and `load_antenna_from_parsed_line`, written
  on scene values.
- **SceneStore** has the class `Scene`, which is `struct Scene`: three arrays
  with a count each. The adders, the per-line loaders, the validators,
  `scene_is_empty` and the bounding-box computation are its methods. Each is
  tied to the pure functions above by a ghost `Value()`.
- **Loader** is `load_scene_from_stdin` over a sequence of lines. It exists as
  a pure state machine, `Step`, `Run` and `Load`, and as the imperative loop
  `LoadSceneFromLines` proved equal to it.

Every error report of the source ends the program. In the model, the first
error becomes the result instead: `Err(e)`, `Some(e)`, or `Failed(e)`.

Two behaviours of the code are kept as written:

- The interval predicate does not report strictly nested intervals, even
  though a comment says overlap means a strictly positive area.
- A scene with houses only has the seed box `[INT_MAX, INT_MIN] x [INT_MAX, INT_MIN]`
  as its bounding box, because houses are not visited.

## Model

| member | source | states |
|---|---|---|
| Validation.IsValidId | src/validation.c:11-20 | accepts exactly the identifiers `[A-Za-z_][A-Za-z0-9_]*` (ok iff ValidId) |
| Validation.DigitsFrom | src/validation.c:30-35 | the trailing digit walk: true iff every character from i on is a digit |
| Validation.IsValidInteger | src/validation.c:22-36 | accepts exactly "0" or `-?[1-9][0-9]*` (ok iff ValidInteger) |
| Validation.IsValidPositiveInteger | src/validation.c:38-48 | accepts exactly `[1-9][0-9]*` (ok iff ValidPositiveInteger) |
| Validation.PositiveIsInteger | src/validation.c:22-48 | every valid positive integer is a valid integer |
| Validation.IdIsNotInteger | src/validation.c:11-36 | no string is both a valid identifier and a valid integer |
| Validation.IdAcceptsAllDigits | src/validation.h:47 | every digit 2-9 is an identifier character (after a letter, and in "b29", "_7"), unlike the documented class `[a-zA-Z0-1_]`; empty, digit-led and dashed strings are refused |
| Validation.IntegerRejections | src/validation.h:59 | "", "-", "-0", "007" and "+5" are refused; "0", "-12" and "40" are accepted |
| Decimal.Atoi | src/scene.c:297-300 | atoi on a validated token: an optional minus sign, then the decimal value of the digits (its meaning is stated by Decimal.ValidIntegerIsCanonical and Decimal.RenderIsValid) |
| Decimal.RenderNatSpelling | src/validation.h:59 | the decimal spelling of a natural is "0" or a valid positive integer, and reads back to the same value |
| Decimal.PositiveValue | src/validation.h:71 | a valid positive-integer token denotes a value of at least 1 |
| Decimal.PositiveRoundTrip | src/validation.h:71 | a positive-integer token is the canonical spelling of its value |
| Decimal.ValidIntegerIsCanonical | src/scene.c:297-300 | for every valid integer token, rendering atoi's value gives back the token |
| Decimal.RenderIsValid | src/validation.h:59 | every integer's rendering is a valid integer token, and atoi reads it back |
| Decimal.AtoiPositive | src/scene.c:299-300 | atoi of a valid positive-integer token is at least 1 |
| IdOrder.Less | src/scene.c:514-515 | `strcmp(a, b) < 0` on NUL-free strings: the first differing character decides, and a proper prefix comes first |
| IdOrder.LessIrreflexive | src/scene.c:514-518 | no identifier is strcmp-below itself |
| IdOrder.LessAsymmetric | src/scene.c:514-518 | strcmp order is asymmetric |
| IdOrder.LessTransitive | src/scene.c:514-518 | strcmp order is transitive |
| IdOrder.LessTotal | src/scene.c:514-518 | two different identifiers are always strcmp-comparable |
| Geometry.AreIntervalsOverlapping | src/scene.c:47-50 | true iff the intersection has positive length and neither interval lies strictly inside the other |
| Geometry.IntervalsOverlappingSymmetric | src/scene.c:47-50 | swapping the two intervals does not change the result |
| Geometry.IntervalsOverlappingSound | src/scene.c:47-50 | overlap implies max(a1,a2) < min(b1,b2) |
| Geometry.IntervalsTruthTable | src/scene.c:47-50 | identical and crossing intervals overlap; edge-touching and strictly nested ones do not, though the nested pair intersects |
| Geometry.AreStructuresOverlapping | src/scene.c:61-71 | overlapping structures share a region of positive width and positive height |
| Geometry.StructuresOverlappingSymmetric | src/scene.c:87-114 | the rectangle predicate is symmetric, so one formula serves building/building, house/house and building/house |
| Geometry.HaveAntennasSamePosition | src/scene.c:79-82 | two antennas are at the same position exactly when both coordinates are equal |
| Geometry.FindFirstPair | src/scene.c:122-137 | found iff some pair i < j is related, and then (i, j) is the first such pair in loop order |
| Geometry.FindFirstCrossPair | src/scene.c:168-183 | found iff some pair (i, j) across the two arrays is related, and then it is the first in loop order |
| Geometry.HullStep | src/scene.c:487-505 | one more loop pass extends the accumulated bounds by one more box |
| Geometry.HullAppend | src/scene.c:487-505 | running the antenna loop after the building loop is the fold over both runs of boxes |
| Geometry.HullIsTight | src/scene.c:480-507 | the accumulated bounds enclose every box, and each bound is the seed's or is attained by a box (they are the min/max) |
| Store.Position | src/scene.c:514-517 | the scan stops at the first element whose identifier is not strcmp-below the new one |
| Store.InsertSorted | src/scene.c:512-547 | the scan, refusal and placement of add_building/add_antenna on a sequence: a refusal means an element with that identifier is present, and an insert grows the store by exactly the new element |
| Store.InsertSortedRefusesDuplicates | src/scene.c:518-520 | on a sorted store, the insert is refused exactly when the identifier is already present |
| Store.InsertSortedKeepsOrder | src/scene.c:512-529 | otherwise the store grows by one, stays strictly ascending, holds the new element, and keeps the old elements in order |
| Store.InsertInPlace | src/scene.c:512-529 | the scan-shift-place loop on an array gives the sorted insert; a refusal leaves the array unchanged; slots past the count are untouched |
| Store.SortedUnique | src/scene.c:512-547 | two stores strictly ascending by identifier that hold the same elements, counted with multiplicity, are the same sequence: the order of insertion leaves no trace |
| Tokenizer.Tokens | src/scene.c:250-264 | the tokens strtok with delimiter " " yields: the maximal runs of non-space characters, in order (its properties are the Tokenizer lemmas below) |
| Tokenizer.TokensWellFormed | src/scene.c:250-264 | every token is non-empty and holds no space |
| Tokenizer.TokensCoverLine | src/scene.c:250-264 | the tokens hold exactly the non-space characters of the line, in order |
| Tokenizer.TokensOfJoin | src/scene.c:250-264 | splitting tokens joined by single spaces gives the same tokens back |
| Tokenizer.TokensSplitAtSpace | src/scene.c:255-261 | a space always ends a token: the tokens of a + " " + b are the tokens of a followed by those of b, whatever spaces either holds |
| Tokenizer.TokenAlone | src/scene.c:255-261 | a non-empty run without spaces is exactly one token |
| Tokenizer.ParseLine | src/scene.c:250-264 | the strtok loop yields the tokens of the line, tagged with its number |
| Decoders.DecodeStructure | src/scene.c:273-303 | for the building or house keyword: "not mine" iff the keyword differs; decoded iff 6 tokens and valid id, integers and positive half-sizes; otherwise the error is the wrong-count error when there are not 6 tokens, else the error of the first bad field checked in the order id, x, y, w, h, naming that token and carrying the line number; decoded fields render back to their tokens |
| Decoders.DecodeAntenna | src/scene.c:352-378 | the same for antennas: 5 tokens, the fields checked in the order id, x, y, r, positive range |
| Decoders.DecodeErrorExamples | src/scene.c:277-294 | `building bx 0 0 -1 1` on line 2 fails on the half-size "-1"; a bad identifier is reported before a bad coordinate; a short line fails on its count; "007" is a bad integer |
| Decoders.DecodeBuildingExamples | src/scene.c:273-303 | `building b2 10 10 1 1` and `building b1 0 0 2 2` decode to those two buildings |
| Decoders.WithStructure | src/scene.c:512-529 | add_building (or add_house) on a scene value: refused with the non-unique error only when the collection already holds the identifier; otherwise exactly the new structure joins its collection and the other two are unchanged |
| Decoders.WithAntenna | src/scene.c:531-547 | add_antenna on a scene value: refused with the non-unique error only when the identifier is present; otherwise exactly the new antenna joins the antennas |
| Decoders.WithStructureKeepsSorted | src/scene.c:512-529 | adding a building or house keeps the scene sorted and touches only its collection |
| Decoders.WithAntennaKeepsSorted | src/scene.c:531-547 | adding an antenna keeps the scene sorted and touches only the antennas |
| Decoders.LoadStructureLine | src/scene.c:273-343 | load_building_from_parsed_line or load_house_from_parsed_line: not mine iff the keyword differs; a failure is a field error with the line number or a duplicate of the line's identifier; a load adds one entity |
| Decoders.LoadAntennaLine | src/scene.c:352-378 | the same for load_antenna_from_parsed_line |
| Decoders.LoadLine | src/scene.c:410-414 | the errors of the decoder chain are field errors carrying the line number, or a duplicate identifier; a field error of the building, house or antenna decoder is the chain's error |
| Decoders.LoadLineRecognizes | src/scene.c:410-414 | the chain claims a line iff it starts with building, house or antenna |
| Decoders.InsertStructureValid | src/scene.c:512-529 | inserting a valid structure into a valid sorted collection is refused iff its id is present; otherwise the result is sorted, valid and one element larger |
| Decoders.InsertAntennaValid | src/scene.c:531-547 | the same for antennas |
| Decoders.LoadStructureLineAddsOne | src/scene.c:273-343 | a decoded building or house line fails iff its id is taken; otherwise it adds exactly that entity and leaves the other collections alone |
| Decoders.LoadAntennaLineAddsOne | src/scene.c:352-378 | the same for antenna lines |
| Decoders.LoadLineWellFormed | src/scene.c:410-414 | loading a line keeps a scene sorted with valid entities |
| Decoders.LoadLineAddsOne | src/scene.c:410-414 | a loaded line adds exactly one entity |
| Decoders.LoadLineIntoEmpty | src/scene.c:410-414 | loading the b2 line into the empty scene gives the buildings [b2] |
| Decoders.LoadLinePlacesFirst | src/scene.c:512-529 | loading the b1 line after it gives [b1, b2]: strcmp puts b1 first |
| Decoders.StructureLineContents | src/scene.c:273-343 | a loaded building or house line adds to its collection exactly the structure its decoder reads, and leaves the other two collections unchanged |
| Decoders.LoadLineContents | src/scene.c:410-414 | a loaded line adds to each of the three collections exactly what that collection's decoder reads from the line, counted with multiplicity |
| SceneStore.Scene.constructor | src/scene.c:386-390 | a new store is empty and valid |
| SceneStore.Scene.AddBuilding | src/scene.c:512-529 | the store afterwards is the sorted insert of the building, or unchanged with a non-unique error |
| SceneStore.Scene.AddHouse | src/scene.c:341 | the same for houses |
| SceneStore.Scene.AddAntenna | src/scene.c:531-547 | the same for antennas |
| SceneStore.Scene.LoadBuildingFromParsedLine | src/scene.c:273-303 | not mine iff the decoder says so, with the store untouched; otherwise the decoder's error or its loaded scene |
| SceneStore.Scene.LoadHouseFromParsedLine | src/scene.c:312-343 | the same for house lines |
| SceneStore.Scene.LoadAntennaFromParsedLine | src/scene.c:352-378 | the same for antenna lines |
| SceneStore.Scene.IsEmpty | src/scene.c:441-445 | empty iff the scene holds no entity at all |
| SceneStore.Scene.ValidateBuildings | src/scene.c:122-137 | true iff two buildings overlap; then the error names the first pair; otherwise the error is untouched |
| SceneStore.Scene.ValidateHouses | src/scene.c:145-160 | the same for houses |
| SceneStore.Scene.ValidateBuildingsHousesOverlap | src/scene.c:168-183 | the same for a building and a house |
| SceneStore.Scene.ValidateStructuresOverlaps | src/scene.c:191-195 | buildings, then houses, then cross pairs: true iff any overlap, with the error written by the first that finds one |
| SceneStore.Scene.ValidateAntennas | src/scene.c:202-218 | true iff two antennas share a position; then the error names the first pair |
| SceneStore.ExtendOverStructures | src/scene.c:487-496 | the building loop yields the bounds folded over the boxes [x-w, x+w] x [y-h, y+h] of the buildings, in order |
| SceneStore.ExtendOverAntennas | src/scene.c:497-505 | the antenna loop yields the bounds folded over the boxes [x-r, x+r] x [y-r, y+r] of the antennas, in order |
| SceneStore.Scene.BoundingBox | src/scene.c:480-507 | undefined iff the scene is empty; otherwise the fold of the seed over building then antenna boxes, which by Geometry.HullIsTight encloses every one and has each bound attained or equal to the seed's |
| Loader.Step | src/scene.c:397-420 | one pass of the reading loop: the line number advances by one; the first line is never parsed; the last-line flag is set exactly by a later "end scene" line; the first-line error arises exactly on the first line; a later line other than "end scene" gives the no-token error exactly when it has no tokens, the unrecognized-line error with its own number when no keyword opens it, and a building, house or antenna decoder's field error as the step's error |
| Loader.Run | src/scene.c:396-420 | the reading loop over all lines, stopping at the first error (its properties are the Loader lemmas below) |
| Loader.Load | src/scene.c:392-422 | load_scene_from_stdin: the loop from line 1 with an empty scene, then the last-line check |
| Loader.RunLastLine | src/scene.c:396-420 | the line number advances by one per line; the last-line flag is set only when the final line is "end scene" |
| Loader.LoadFraming | src/scene.c:392-422 | a load succeeds only over two or more lines, from "begin scene" to "end scene"; a wrong first line fails with the first-line error; empty input fails with the last-line error |
| Loader.RunWellFormed | src/scene.c:392-422 | the loop keeps the scene sorted with valid entities |
| Loader.LoadWellFormed | src/scene.c:392-422 | every loaded scene is sorted by id in each collection, with valid entities |
| Loader.StepContents | src/scene.c:397-420 | after the first line, a successful pass of the loop adds to each collection exactly what that line holds for it; "end scene" and blank lines add nothing |
| Loader.RunAccumulates | src/scene.c:396-420 | when every successful pass after the first line adds what its line holds, the whole loop adds what all its lines hold |
| Loader.LoadContents | src/scene.c:392-422 | a loaded scene's buildings, houses and antennas are, as multisets, exactly those the decoders read from lines 2 onwards |
| Loader.LoadDeterminedByContents | src/scene.c:392-422 | two successful loads whose lines 2 onwards hold the same buildings, houses and antennas give the same scene, whatever the order of the lines |
| Loader.LoadSortsById | src/scene.c:512-529 | "building b2 …" before "building b1 …" loads to the buildings [b1, b2], ascending by identifier |
| Loader.StepUnrecognized | src/scene.c:410-415 | an unrecognized line is not the first line nor "end scene", and no keyword opens it |
| Loader.RunUnrecognized | src/scene.c:396-420 | the unrecognized-line error carries the number of that line |
| Loader.LoadUnrecognized | src/scene.c:392-422 | that number lies between 2 and the number of lines, and that line is not "end scene" and opens with no keyword |
| Loader.RunAppend | src/scene.c:397-420 | reading two runs of lines in a row is reading the first, then the second from the state it leaves |
| Loader.LoadReportsUnrecognized | src/scene.c:410-415 | once the first k lines are read without error, a following line that is not "end scene" and that no keyword opens makes the loading fail with the unrecognized-line error numbered k + 1 |
| Loader.LoadReportsFieldError | src/scene.c:278-294 | "begin scene", "building bx 0 0 -1 1", "end scene" fails with the bad positive integer "-1" on line 2 |
| Loader.ReadingGoesOnAfterEndScene | src/scene.c:397-404 | lines after "end scene" are still decoded, and an empty one is an error; "begin scene" followed by "end scene" loads the empty scene |
| Loader.RunUnfold | src/scene.c:397-420 | reading from line i on is one step, then reading from line i + 1 on |
| Loader.LoadParsedLine | src/scene.c:410-415 | the decoder chain on the store: the unrecognized-line error, the decoder's error, or the loaded scene |
| Loader.ReadLine | src/scene.c:398-418 | one pass of the loop body on the store has Step's outcome: the same error, or the flags, the next line number and the scene Step leaves |
| Loader.LoadSceneFromLines | src/scene.c:392-422 | the reading loop returns exactly Load's outcome: its first error, or a valid store holding Load's scene |

## Left out

- The command line of `src/kover.c` is not part of this model, and neither is printing. That covers `print_scene_summary`, `print_scene_buildings`, `print_scene_antennas`, the output of `print_scene_bounding_box`, and `validate_scene`. All of them are output formatting.
- The `report_error_*` functions print to stderr and exit. They become the `LoadError` values, and the validators' messages become the structured `Message` kinds with their two identifiers. The text itself is not modelled.
- `report_error("line has no token")` is modelled as the `NoToken` error. The body of `report_error` is not part of this model.
- `is_scene_valid`, `init_validation_error`, the corner counts and `get_coverage_quality` are declared but not defined in the modelled files. So coverage grading is not modelled.
- `add_house` is declared but not defined in the modelled files. SceneStore.Scene.AddHouse assumes it is the same sorted insert as `add_building`.
- Reading from stdin is not modelled. The input is a sequence of lines with their newlines already removed. The model does not split long lines the way `fgets` does at `MAX_LENGTH` (50).
- Truncation is not modelled. Tokens are not cut to `MAX_TOKEN_LENGTH`, and ids are not cut to `MAX_LENGTH_ID`. No NUL is ever missing.
- The unchecked `MAX_NUM_TOKENS` limit of 6 tokens per line is not modelled. A line may have any number of tokens.
- The fixed capacity `NUM_MAX_*` = 100 is not modelled. SceneStore.Scene.constructor takes the capacity, and Loader.LoadSceneFromLines allocates one slot per input line. That is always enough, so the unchecked array overflow of the source never arises.
- The lines are taken to hold no NUL and no newline character. In C, `strcmp`, `strtok` and the validators stop at the first NUL, so a line with an embedded NUL is read only up to it; the model reads the whole line.
- C `int` overflow is not modelled. This covers `x ± w`, `atoi`, and the `INT_MAX`/`INT_MIN` seeds of the bounding box, which are kept as unbounded integers.
- `isalpha`/`isalnum` depend on the locale in C. The model uses the ASCII "C" locale.
- strcmp compares `unsigned char` values. The model compares characters by code point, and the two orders agree on ASCII.

=== FILE: decimal.dfy ===
/**
 * The value the decoders read from a validated numeric token (atoi) and the
 * canonical decimal spelling of an integer. The valid-integer language is
 * exactly the set of canonical spellings: no leading zero and no "-0".
 */
module Decimal {
  import opened Validation

  function DigitValue(c: char): int { c as int - '0' as int }

  function DigitChar(d: int): char
    requires 0 <= d <= 9
  {
    ('0' as int + d) as char
  }

  /** The value of a string of decimal digits, read from the right. */
  function DigitsValue(s: string): int
  {
    if |s| == 0 then 0 else DigitsValue(s[..|s| - 1]) * 10 + DigitValue(s[|s| - 1])
  }

  /** atoi on the tokens the decoders hand it: an optional '-' then digits. */
  function Atoi(s: string): int
  {
    if |s| > 0 && s[0] == '-' then -DigitsValue(s[1..]) else DigitsValue(s)
  }

  /** The decimal spelling of a natural number, without leading zeros. */
  function RenderNat(n: nat): string
  {
    if n < 10 then [DigitChar(n)] else RenderNat(n / 10) + [DigitChar(n % 10)]
  }

  /** The canonical decimal spelling of an integer. */
  function Render(n: int): string
  {
    if n < 0 then "-" + RenderNat(-n) else RenderNat(n)
  }

  /** RenderNat spells zero as "0" and every other number as a valid positive integer of that value. */
  lemma {:induction false} RenderNatSpelling(n: nat)
    ensures n == 0 ==> RenderNat(n) == "0"
    ensures n > 0 ==> ValidPositiveInteger(RenderNat(n))
    ensures DigitsValue(RenderNat(n)) == n
  {
    if n >= 10 {
      RenderNatSpelling(n / 10);
      var s := RenderNat(n);
      assert s[..|s| - 1] == RenderNat(n / 10);
      assert s[0] == RenderNat(n / 10)[0];
      assert s[1..] == RenderNat(n / 10)[1..] + [DigitChar(n % 10)];
    }
  }

  /** A valid positive integer denotes a value of at least 1. */
  lemma {:induction false} PositiveValue(s: string)
    requires ValidPositiveInteger(s)
    ensures DigitsValue(s) >= 1
  {
    if |s| > 1 {
      var p := s[..|s| - 1];
      assert p[1..] == s[1..][..|s| - 2];
      PositiveValue(p);
    }
  }

  /** Reading a valid positive integer and spelling the value gives the string back. */
  lemma {:induction false} PositiveRoundTrip(s: string)
    requires ValidPositiveInteger(s)
    ensures DigitsValue(s) >= 1 && RenderNat(DigitsValue(s)) == s
  {
    if |s| == 1 {
      assert s == [s[0]];
    } else {
      var p := s[..|s| - 1];
      assert p[1..] == s[1..][..|s| - 2];
      PositiveValue(p);
      PositiveRoundTrip(p);
      var v := DigitsValue(s);
      assert v == DigitsValue(p) * 10 + DigitValue(s[|s| - 1]);
      assert v / 10 == DigitsValue(p) && v % 10 == DigitValue(s[|s| - 1]);
      assert s == p + [s[|s| - 1]];
    }
  }

  /** Every valid integer token is the canonical spelling of the value atoi reads from it. */
  lemma ValidIntegerIsCanonical(s: string)
    requires ValidInteger(s)
    ensures Render(Atoi(s)) == s
  {
    if s == "0" {
    } else if ValidPositiveInteger(s) {
      PositiveValue(s);
      PositiveRoundTrip(s);
    } else {
      PositiveValue(s[1..]);
      PositiveRoundTrip(s[1..]);
      assert s == "-" + s[1..];
    }
  }

  /** Every integer has a canonical spelling, it is a valid integer, and atoi reads the integer back. */
  lemma RenderIsValid(n: int)
    ensures ValidInteger(Render(n))
    ensures Atoi(Render(n)) == n
  {
    if n < 0 {
      RenderNatSpelling(-n);
      assert Render(n)[1..] == RenderNat(-n);
    } else {
      RenderNatSpelling(n);
    }
  }

  /** A valid positive-integer token yields a value of at least 1 under atoi. */
  lemma AtoiPositive(s: string)
    requires ValidPositiveInteger(s)
    ensures Atoi(s) >= 1
  {
    PositiveValue(s);
  }
}

=== FILE: decoders.dfy ===
/**
 * The three keyword decoders of src/scene.c (load_building_from_parsed_line,
 * load_house_from_parsed_line, load_antenna_from_parsed_line) on scene
 * values: recognise the keyword, check the token count, check the fields
 * left to right, convert them with atoi, and add the entity to its sorted
 * collection.
 */
module Decoders {
  import opened Wrappers
  import opened Entities
  import opened Validation
  import opened Decimal
  import opened Store
  import opened IdOrder

  /** What a decoder makes of a line before the entity is added. */
  datatype Decoded<T> = WrongKeyword | Invalid(error: LoadError) | Decoded(entity: T)

  /** What a decoder makes of a line, the addition included. */
  datatype LineOutcome = NotMine | Failed(error: LoadError) | Loaded(scene: SceneValue)

  /** The line number an error of a decoder carries. */
  predicate CarriesLine(e: LoadError, n: int)
  {
    match e
    case WrongArgumentsNumber(_, m) => m == n
    case InvalidIdentifier(_, m) => m == n
    case InvalidInt(_, m) => m == n
    case InvalidPositiveInt(_, m) => m == n
    case _ => false
  }

  /** A building or house as a scene holds it: a valid identifier and positive half-sizes. */
  predicate ValidStructure(s: Structure)
  {
    ValidId(s.id) && s.w >= 1 && s.h >= 1
  }

  /** An antenna as a scene holds it: a valid identifier and a positive range. */
  predicate ValidAntenna(a: Antenna)
  {
    ValidId(a.id) && a.r >= 1
  }

  /** Every collection strictly ascending by identifier, hence free of duplicate identifiers. */
  ghost predicate Sorted(sv: SceneValue)
  {
    && SortedBy(sv.buildings, StructureId)
    && SortedBy(sv.houses, StructureId)
    && SortedBy(sv.antennas, AntennaId)
  }

  /** A sorted scene whose every entity is valid. */
  ghost predicate WellFormed(sv: SceneValue)
  {
    && Sorted(sv)
    && (forall k :: 0 <= k < |sv.buildings| ==> ValidStructure(sv.buildings[k]))
    && (forall k :: 0 <= k < |sv.houses| ==> ValidStructure(sv.houses[k]))
    && (forall k :: 0 <= k < |sv.antennas| ==> ValidAntenna(sv.antennas[k]))
  }

  /** The number of entities a scene holds. */
  function Size(sv: SceneValue): nat
  {
    |sv.buildings| + |sv.houses| + |sv.antennas|
  }

  /**
   * The checks of load_building_from_parsed_line and load_house_from_parsed_line,
   * up to the call that adds the entity.
   */
  function DecodeStructure(kind: EntityKind, pl: ParsedLine): (r: Decoded<Structure>)
    requires kind != AntennaKind && |pl.tokens| > 0
    ensures r.WrongKeyword? <==> pl.tokens[0] != Keyword(kind)
    ensures r.Invalid? ==> CarriesLine(r.error, pl.lineNumber)
    ensures r.Invalid? ==>
              var t := pl.tokens;
              match r.error
              case WrongArgumentsNumber(k, _) => k == kind && |t| != 6
              case InvalidIdentifier(tok, _) => |t| == 6 && tok == t[1] && !ValidId(tok)
              case InvalidInt(tok, _) =>
                && |t| == 6 && ValidId(t[1])
                && ((tok == t[2] && !ValidInteger(tok)) || (ValidInteger(t[2]) && tok == t[3] && !ValidInteger(tok)))
              case InvalidPositiveInt(tok, _) =>
                && |t| == 6 && ValidId(t[1]) && ValidInteger(t[2]) && ValidInteger(t[3])
                && ((tok == t[4] && !ValidPositiveInteger(tok)) ||
                    (ValidPositiveInteger(t[4]) && tok == t[5] && !ValidPositiveInteger(tok)))
              case _ => false
    ensures r.Decoded? <==>
              && pl.tokens[0] == Keyword(kind)
              && |pl.tokens| == 6
              && ValidId(pl.tokens[1])
              && ValidInteger(pl.tokens[2]) && ValidInteger(pl.tokens[3])
              && ValidPositiveInteger(pl.tokens[4]) && ValidPositiveInteger(pl.tokens[5])
    ensures r.Decoded? ==>
              && ValidStructure(r.entity)
              && r.entity.id == pl.tokens[1]
              && Render(r.entity.x) == pl.tokens[2] && Render(r.entity.y) == pl.tokens[3]
              && Render(r.entity.w) == pl.tokens[4] && Render(r.entity.h) == pl.tokens[5]
  {
    var t, n := pl.tokens, pl.lineNumber;
    if t[0] != Keyword(kind) then WrongKeyword
    else if |t| != 6 then Invalid(WrongArgumentsNumber(kind, n))
    else if !ValidId(t[1]) then Invalid(InvalidIdentifier(t[1], n))
    else if !ValidInteger(t[2]) then Invalid(InvalidInt(t[2], n))
    else if !ValidInteger(t[3]) then Invalid(InvalidInt(t[3], n))
    else if !ValidPositiveInteger(t[4]) then Invalid(InvalidPositiveInt(t[4], n))
    else if !ValidPositiveInteger(t[5]) then Invalid(InvalidPositiveInt(t[5], n))
    else
      ValidIntegerIsCanonical(t[2]);
      ValidIntegerIsCanonical(t[3]);
      PositiveIsInteger(t[4]);
      PositiveIsInteger(t[5]);
      ValidIntegerIsCanonical(t[4]);
      ValidIntegerIsCanonical(t[5]);
      AtoiPositive(t[4]);
      AtoiPositive(t[5]);
      Decoded(Structure(t[1], Atoi(t[2]), Atoi(t[3]), Atoi(t[4]), Atoi(t[5])))
  }

  /** The checks of load_antenna_from_parsed_line, up to the call to add_antenna. */
  function DecodeAntenna(pl: ParsedLine): (r: Decoded<Antenna>)
    requires |pl.tokens| > 0
    ensures r.WrongKeyword? <==> pl.tokens[0] != Keyword(AntennaKind)
    ensures r.Invalid? ==> CarriesLine(r.error, pl.lineNumber)
    ensures r.Invalid? ==>
              var t := pl.tokens;
              match r.error
              case WrongArgumentsNumber(k, _) => k == AntennaKind && |t| != 5
              case InvalidIdentifier(tok, _) => |t| == 5 && tok == t[1] && !ValidId(tok)
              case InvalidInt(tok, _) =>
                && |t| == 5 && ValidId(t[1])
                && ((tok == t[2] && !ValidInteger(tok)) || (ValidInteger(t[2]) && tok == t[3] && !ValidInteger(tok)))
              case InvalidPositiveInt(tok, _) =>
                && |t| == 5 && ValidId(t[1]) && ValidInteger(t[2]) && ValidInteger(t[3])
                && tok == t[4] && !ValidPositiveInteger(tok)
              case _ => false
    ensures r.Decoded? <==>
              && pl.tokens[0] == Keyword(AntennaKind)
              && |pl.tokens| == 5
              && ValidId(pl.tokens[1])
              && ValidInteger(pl.tokens[2]) && ValidInteger(pl.tokens[3])
              && ValidPositiveInteger(pl.tokens[4])
    ensures r.Decoded? ==>
              && ValidAntenna(r.entity)
              && r.entity.id == pl.tokens[1]
              && Render(r.entity.x) == pl.tokens[2] && Render(r.entity.y) == pl.tokens[3]
              && Render(r.entity.r) == pl.tokens[4]
  {
    var t, n := pl.tokens, pl.lineNumber;
    if t[0] != Keyword(AntennaKind) then WrongKeyword
    else if |t| != 5 then Invalid(WrongArgumentsNumber(AntennaKind, n))
    else if !ValidId(t[1]) then Invalid(InvalidIdentifier(t[1], n))
    else if !ValidInteger(t[2]) then Invalid(InvalidInt(t[2], n))
    else if !ValidInteger(t[3]) then Invalid(InvalidInt(t[3], n))
    else if !ValidPositiveInteger(t[4]) then Invalid(InvalidPositiveInt(t[4], n))
    else
      ValidIntegerIsCanonical(t[2]);
      ValidIntegerIsCanonical(t[3]);
      PositiveIsInteger(t[4]);
      ValidIntegerIsCanonical(t[4]);
      AtoiPositive(t[4]);
      Decoded(Antenna(t[1], Atoi(t[2]), Atoi(t[3]), Atoi(t[4])))
  }

  /**
   * The first failing field decides the error: a negative half-size is
   * reported as a bad positive integer, a bad identifier before a bad
   * coordinate, and a wrong token count before anything else.
   */
  lemma DecodeErrorExamples()
    ensures DecodeStructure(BuildingKind, ParsedLine(["building", "bx", "0", "0", "-1", "1"], 2))
              == Invalid(InvalidPositiveInt("-1", 2))
    ensures DecodeStructure(HouseKind, ParsedLine(["house", "9h", "x", "0", "1", "1"], 3))
              == Invalid(InvalidIdentifier("9h", 3))
    ensures DecodeStructure(HouseKind, ParsedLine(["house", "h", "0", "0", "1"], 4))
              == Invalid(WrongArgumentsNumber(HouseKind, 4))
    ensures DecodeAntenna(ParsedLine(["antenna", "a1", "3", "007", "0"], 5))
              == Invalid(InvalidInt("007", 5))
  {
    assert !ValidPositiveInteger("-1");
    assert !IsIdStart("9h"[0]);
    assert ValidInteger("3") && !ValidInteger("007");
  }

  /** Two well-formed building lines as the decoder reads them. */
  lemma DecodeBuildingExamples()
    ensures DecodeStructure(BuildingKind, ParsedLine(["building", "b2", "10", "10", "1", "1"], 2))
              == Decoded(Structure("b2", 10, 10, 1, 1))
    ensures DecodeStructure(BuildingKind, ParsedLine(["building", "b1", "0", "0", "2", "2"], 3))
              == Decoded(Structure("b1", 0, 0, 2, 2))
  {
    assert IsIdChar("b2"[1]) && IsIdChar("b1"[1]);
    assert ValidPositiveInteger("10") && ValidPositiveInteger("1") && ValidPositiveInteger("2");
    assert DigitsValue("10") == DigitsValue("1") * 10;
  }

  /** The collection a building or house decoder adds to. */
  function Collection(kind: EntityKind, sv: SceneValue): seq<Structure>
  {
    if kind == BuildingKind then sv.buildings else sv.houses
  }

  /** add_building, or add_house, on a scene value. */
  function WithStructure(kind: EntityKind, sv: SceneValue, s: Structure): (r: Result<SceneValue, LoadError>)
    requires kind != AntennaKind
    ensures r.Err? ==>
              && r.error == NonUniqueIdentifiers(kind, s.id)
              && exists k :: 0 <= k < |Collection(kind, sv)| && Collection(kind, sv)[k].id == s.id
    ensures r.Ok? ==>
              && multiset(Collection(kind, r.value)) == multiset(Collection(kind, sv)) + multiset{s}
              && r.value.antennas == sv.antennas
              && (kind == BuildingKind ==> r.value.houses == sv.houses)
              && (kind == HouseKind ==> r.value.buildings == sv.buildings)
  {
    match InsertSorted(Collection(kind, sv), s, StructureId)
    case None => Err(NonUniqueIdentifiers(kind, s.id))
    case Some(c) => Ok(if kind == BuildingKind then sv.(buildings := c) else sv.(houses := c))
  }

  /** add_antenna on a scene value. */
  function WithAntenna(sv: SceneValue, a: Antenna): (r: Result<SceneValue, LoadError>)
    ensures r.Err? ==>
              && r.error == NonUniqueIdentifiers(AntennaKind, a.id)
              && exists k :: 0 <= k < |sv.antennas| && sv.antennas[k].id == a.id
    ensures r.Ok? ==>
              && multiset(r.value.antennas) == multiset(sv.antennas) + multiset{a}
              && r.value.buildings == sv.buildings && r.value.houses == sv.houses
  {
    match InsertSorted(sv.antennas, a, AntennaId)
    case None => Err(NonUniqueIdentifiers(AntennaKind, a.id))
    case Some(c) => Ok(sv.(antennas := c))
  }

  /** Adding a building or house to a sorted scene keeps it sorted and touches only that collection. */
  lemma WithStructureKeepsSorted(kind: EntityKind, sv: SceneValue, s: Structure)
    requires kind != AntennaKind && Sorted(sv)
    ensures WithStructure(kind, sv, s).Ok? ==>
              var sv' := WithStructure(kind, sv, s).value;
              && Sorted(sv')
              && sv'.antennas == sv.antennas
              && (kind == BuildingKind ==> sv'.houses == sv.houses)
              && (kind == HouseKind ==> sv'.buildings == sv.buildings)
  {
    var coll := Collection(kind, sv);
    InsertSortedRefusesDuplicates(coll, s, StructureId);
    if InsertSorted(coll, s, StructureId).Some? {
      InsertSortedKeepsOrder(coll, s, StructureId);
    }
  }

  /** Adding an antenna to a sorted scene keeps it sorted and touches only the antennas. */
  lemma WithAntennaKeepsSorted(sv: SceneValue, a: Antenna)
    requires Sorted(sv)
    ensures WithAntenna(sv, a).Ok? ==>
              var sv' := WithAntenna(sv, a).value;
              Sorted(sv') && sv'.buildings == sv.buildings && sv'.houses == sv.houses
  {
    InsertSortedRefusesDuplicates(sv.antennas, a, AntennaId);
    if InsertSorted(sv.antennas, a, AntennaId).Some? {
      InsertSortedKeepsOrder(sv.antennas, a, AntennaId);
    }
  }

  /** load_building_from_parsed_line or load_house_from_parsed_line. */
  function LoadStructureLine(kind: EntityKind, pl: ParsedLine, sv: SceneValue): (r: LineOutcome)
    requires kind != AntennaKind && |pl.tokens| > 0
    ensures r.NotMine? <==> pl.tokens[0] != Keyword(kind)
    ensures r.Failed? ==> CarriesLine(r.error, pl.lineNumber) || (|pl.tokens| > 1 && r.error == NonUniqueIdentifiers(kind, pl.tokens[1]))
    ensures r.Loaded? ==> DecodeStructure(kind, pl).Decoded? && Size(r.scene) == Size(sv) + 1
  {
    match DecodeStructure(kind, pl)
    case WrongKeyword => NotMine
    case Invalid(e) => Failed(e)
    case Decoded(s) =>
      match WithStructure(kind, sv, s)
      case Err(e) => Failed(e)
      case Ok(sv') => Loaded(sv')
  }

  /** load_antenna_from_parsed_line. */
  function LoadAntennaLine(pl: ParsedLine, sv: SceneValue): (r: LineOutcome)
    requires |pl.tokens| > 0
    ensures r.NotMine? <==> pl.tokens[0] != Keyword(AntennaKind)
    ensures r.Failed? ==> CarriesLine(r.error, pl.lineNumber) || (|pl.tokens| > 1 && r.error == NonUniqueIdentifiers(AntennaKind, pl.tokens[1]))
    ensures r.Loaded? ==> DecodeAntenna(pl).Decoded? && Size(r.scene) == Size(sv) + 1
  {
    match DecodeAntenna(pl)
    case WrongKeyword => NotMine
    case Invalid(e) => Failed(e)
    case Decoded(a) =>
      match WithAntenna(sv, a)
      case Err(e) => Failed(e)
      case Ok(sv') => Loaded(sv')
  }

  /** The dispatch of the loader: building, then house, then antenna. */
  function LoadLine(pl: ParsedLine, sv: SceneValue): (r: LineOutcome)
    requires |pl.tokens| > 0
    ensures r.Failed? ==> CarriesLine(r.error, pl.lineNumber) || r.error.NonUniqueIdentifiers?
    ensures DecodeStructure(BuildingKind, pl).Invalid? ==> r == Failed(DecodeStructure(BuildingKind, pl).error)
    ensures DecodeStructure(HouseKind, pl).Invalid? ==> r == Failed(DecodeStructure(HouseKind, pl).error)
    ensures DecodeAntenna(pl).Invalid? ==> r == Failed(DecodeAntenna(pl).error)
  {
    match LoadStructureLine(BuildingKind, pl, sv)
    case NotMine =>
      (match LoadStructureLine(HouseKind, pl, sv)
       case NotMine => LoadAntennaLine(pl, sv)
       case other => other)
    case other => other
  }

  /** The b2 line of DecodeBuildingExamples loaded into the empty scene. */
  lemma LoadLineIntoEmpty()
    ensures LoadLine(ParsedLine(["building", "b2", "10", "10", "1", "1"], 2), EmptyScene)
              == Loaded(SceneValue([Structure("b2", 10, 10, 1, 1)], [], []))
  {
    DecodeBuildingExamples();
  }

  /** The b1 line of DecodeBuildingExamples loaded after the b2 line: "b1" goes in front of "b2". */
  lemma LoadLinePlacesFirst()
    ensures LoadLine(ParsedLine(["building", "b1", "0", "0", "2", "2"], 3), SceneValue([Structure("b2", 10, 10, 1, 1)], [], []))
              == Loaded(SceneValue([Structure("b1", 0, 0, 2, 2), Structure("b2", 10, 10, 1, 1)], [], []))
  {
    DecodeBuildingExamples();
    assert !Less("b2", "b1") by { assert !Less("2", "1"); }
    assert Position([Structure("b2", 10, 10, 1, 1)], "b1", StructureId) == 0;
  }

  /** A line is recognised exactly when its first token is one of the three keywords. */
  lemma LoadLineRecognizes(pl: ParsedLine, sv: SceneValue)
    requires |pl.tokens| > 0
    ensures LoadLine(pl, sv).NotMine? <==> pl.tokens[0] !in {"building", "house", "antenna"}
  {
  }

  lemma InsertStructureValid(coll: seq<Structure>, s: Structure)
    requires SortedBy(coll, StructureId) && ValidStructure(s)
    requires forall k :: 0 <= k < |coll| ==> ValidStructure(coll[k])
    ensures InsertSorted(coll, s, StructureId).None? <==> exists k :: 0 <= k < |coll| && coll[k].id == s.id
    ensures InsertSorted(coll, s, StructureId).Some? ==>
              var c := InsertSorted(coll, s, StructureId).value;
              && SortedBy(c, StructureId)
              && multiset(c) == multiset(coll) + multiset{s}
              && forall k :: 0 <= k < |c| ==> ValidStructure(c[k])
  {
    InsertSortedRefusesDuplicates(coll, s, StructureId);
    if InsertSorted(coll, s, StructureId).Some? {
      InsertSortedKeepsOrder(coll, s, StructureId);
      var c := InsertSorted(coll, s, StructureId).value;
      forall k | 0 <= k < |c|
        ensures ValidStructure(c[k])
      {
        assert c[k] in multiset(c);
      }
    }
  }

  lemma InsertAntennaValid(coll: seq<Antenna>, a: Antenna)
    requires SortedBy(coll, AntennaId) && ValidAntenna(a)
    requires forall k :: 0 <= k < |coll| ==> ValidAntenna(coll[k])
    ensures InsertSorted(coll, a, AntennaId).None? <==> exists k :: 0 <= k < |coll| && coll[k].id == a.id
    ensures InsertSorted(coll, a, AntennaId).Some? ==>
              var c := InsertSorted(coll, a, AntennaId).value;
              && SortedBy(c, AntennaId)
              && multiset(c) == multiset(coll) + multiset{a}
              && forall k :: 0 <= k < |c| ==> ValidAntenna(c[k])
  {
    InsertSortedRefusesDuplicates(coll, a, AntennaId);
    if InsertSorted(coll, a, AntennaId).Some? {
      InsertSortedKeepsOrder(coll, a, AntennaId);
      var c := InsertSorted(coll, a, AntennaId).value;
      forall k | 0 <= k < |c|
        ensures ValidAntenna(c[k])
      {
        assert c[k] in multiset(c);
      }
    }
  }

  /**
   * A building or house decoder refuses an identifier exactly when its
   * collection already holds it; otherwise it adds exactly its one entity to
   * that collection, leaves the other two alone, and keeps the scene well formed.
   */
  lemma {:induction false} LoadStructureLineAddsOne(kind: EntityKind, pl: ParsedLine, sv: SceneValue)
    requires kind != AntennaKind && |pl.tokens| > 0
    requires WellFormed(sv)
    requires DecodeStructure(kind, pl).Decoded?
    ensures var c := Collection(kind, sv);
      LoadStructureLine(kind, pl, sv).Failed? <==> exists k :: 0 <= k < |c| && c[k].id == pl.tokens[1]
    ensures LoadStructureLine(kind, pl, sv).Loaded? ==>
              var sv' := LoadStructureLine(kind, pl, sv).scene;
              && WellFormed(sv')
              && sv'.antennas == sv.antennas
              && Collection(if kind == BuildingKind then HouseKind else BuildingKind, sv') ==
                 Collection(if kind == BuildingKind then HouseKind else BuildingKind, sv)
              && multiset(Collection(kind, sv')) == multiset(Collection(kind, sv)) + multiset{DecodeStructure(kind, pl).entity}
  {
    InsertStructureValid(Collection(kind, sv), DecodeStructure(kind, pl).entity);
  }

  /** The same for the antenna decoder. */
  lemma {:induction false} LoadAntennaLineAddsOne(pl: ParsedLine, sv: SceneValue)
    requires |pl.tokens| > 0
    requires WellFormed(sv)
    requires DecodeAntenna(pl).Decoded?
    ensures LoadAntennaLine(pl, sv).Failed? <==> exists k :: 0 <= k < |sv.antennas| && sv.antennas[k].id == pl.tokens[1]
    ensures LoadAntennaLine(pl, sv).Loaded? ==>
              var sv' := LoadAntennaLine(pl, sv).scene;
              && WellFormed(sv')
              && sv'.buildings == sv.buildings && sv'.houses == sv.houses
              && multiset(sv'.antennas) == multiset(sv.antennas) + multiset{DecodeAntenna(pl).entity}
  {
    InsertAntennaValid(sv.antennas, DecodeAntenna(pl).entity);
  }

  /** Loading a line keeps a scene well formed. */
  lemma LoadLineWellFormed(pl: ParsedLine, sv: SceneValue)
    requires |pl.tokens| > 0
    requires WellFormed(sv)
    ensures LoadLine(pl, sv).Loaded? ==> WellFormed(LoadLine(pl, sv).scene)
  {
    if DecodeStructure(BuildingKind, pl).Decoded? {
      LoadStructureLineAddsOne(BuildingKind, pl, sv);
    } else if DecodeStructure(HouseKind, pl).Decoded? {
      LoadStructureLineAddsOne(HouseKind, pl, sv);
    } else if DecodeAntenna(pl).Decoded? {
      LoadAntennaLineAddsOne(pl, sv);
    }
  }


  /** The building or house a line holds: the decoded entity, or nothing when the decoder does not accept the line. */
  function StructureOf(kind: EntityKind, pl: ParsedLine): multiset<Structure>
    requires kind != AntennaKind && |pl.tokens| > 0
  {
    match DecodeStructure(kind, pl)
    case Decoded(s) => multiset{s}
    case _ => multiset{}
  }

  /** The antenna a line holds: the decoded antenna, or nothing. */
  function AntennaOf(pl: ParsedLine): multiset<Antenna>
    requires |pl.tokens| > 0
  {
    match DecodeAntenna(pl)
    case Decoded(a) => multiset{a}
    case _ => multiset{}
  }

  /** A loaded building or house line adds its decoded entity to its collection and nothing elsewhere. */
  lemma StructureLineContents(kind: EntityKind, pl: ParsedLine, sv: SceneValue)
    requires kind != AntennaKind && |pl.tokens| > 0 && LoadStructureLine(kind, pl, sv).Loaded?
    ensures var sv' := LoadStructureLine(kind, pl, sv).scene;
      && multiset(Collection(kind, sv')) == multiset(Collection(kind, sv)) + StructureOf(kind, pl)
      && (kind == BuildingKind ==> sv'.houses == sv.houses)
      && (kind == HouseKind ==> sv'.buildings == sv.buildings)
      && sv'.antennas == sv.antennas
  {
  }

  /** A loaded line that the building keyword opens adds its building and nothing elsewhere. */
  lemma BuildingKeywordContents(pl: ParsedLine, sv: SceneValue)
    requires |pl.tokens| > 0 && pl.tokens[0] == Keyword(BuildingKind) && LoadLine(pl, sv).Loaded?
    ensures var sv' := LoadLine(pl, sv).scene;
      && multiset(sv'.buildings) == multiset(sv.buildings) + StructureOf(BuildingKind, pl)
      && multiset(sv'.houses) == multiset(sv.houses) + StructureOf(HouseKind, pl)
      && multiset(sv'.antennas) == multiset(sv.antennas) + AntennaOf(pl)
  {
    assert LoadLine(pl, sv) == LoadStructureLine(BuildingKind, pl, sv);
    assert StructureOf(HouseKind, pl) == multiset{} && AntennaOf(pl) == multiset{};
    StructureLineContents(BuildingKind, pl, sv);
  }

  /** A loaded line that the house keyword opens adds its house and nothing elsewhere. */
  lemma HouseKeywordContents(pl: ParsedLine, sv: SceneValue)
    requires |pl.tokens| > 0 && pl.tokens[0] == Keyword(HouseKind) && LoadLine(pl, sv).Loaded?
    ensures var sv' := LoadLine(pl, sv).scene;
      && multiset(sv'.buildings) == multiset(sv.buildings) + StructureOf(BuildingKind, pl)
      && multiset(sv'.houses) == multiset(sv.houses) + StructureOf(HouseKind, pl)
      && multiset(sv'.antennas) == multiset(sv.antennas) + AntennaOf(pl)
  {
    assert LoadLine(pl, sv) == LoadStructureLine(HouseKind, pl, sv);
    assert StructureOf(BuildingKind, pl) == multiset{} && AntennaOf(pl) == multiset{};
    StructureLineContents(HouseKind, pl, sv);
  }

  /** A loaded line that no building or house keyword opens adds its antenna and nothing elsewhere. */
  lemma AntennaKeywordContents(pl: ParsedLine, sv: SceneValue)
    requires |pl.tokens| > 0 && pl.tokens[0] != Keyword(BuildingKind) && pl.tokens[0] != Keyword(HouseKind)
    requires LoadLine(pl, sv).Loaded?
    ensures var sv' := LoadLine(pl, sv).scene;
      && multiset(sv'.buildings) == multiset(sv.buildings) + StructureOf(BuildingKind, pl)
      && multiset(sv'.houses) == multiset(sv.houses) + StructureOf(HouseKind, pl)
      && multiset(sv'.antennas) == multiset(sv.antennas) + AntennaOf(pl)
  {
    assert StructureOf(BuildingKind, pl) == multiset{} && StructureOf(HouseKind, pl) == multiset{};
    assert LoadLine(pl, sv) == LoadAntennaLine(pl, sv);
  }

  /** A loaded line adds to each collection exactly what that collection's decoder reads from it. */
  lemma LoadLineContents(pl: ParsedLine, sv: SceneValue)
    requires |pl.tokens| > 0 && LoadLine(pl, sv).Loaded?
    ensures var sv' := LoadLine(pl, sv).scene;
      && multiset(sv'.buildings) == multiset(sv.buildings) + StructureOf(BuildingKind, pl)
      && multiset(sv'.houses) == multiset(sv.houses) + StructureOf(HouseKind, pl)
      && multiset(sv'.antennas) == multiset(sv.antennas) + AntennaOf(pl)
  {
    var k := pl.tokens[0];
    if k == Keyword(BuildingKind) {
      BuildingKeywordContents(pl, sv);
    } else if k == Keyword(HouseKind) {
      HouseKeywordContents(pl, sv);
    } else {
      AntennaKeywordContents(pl, sv);
    }
  }

  /** A loaded line adds exactly one entity. */
  lemma LoadLineAddsOne(pl: ParsedLine, sv: SceneValue)
    requires |pl.tokens| > 0
    ensures LoadLine(pl, sv).Loaded? ==> Size(LoadLine(pl, sv).scene) == Size(sv) + 1
  {
    if LoadStructureLine(BuildingKind, pl, sv).Loaded? {
      assert |LoadStructureLine(BuildingKind, pl, sv).scene.buildings| == |sv.buildings| + 1;
    } else if LoadStructureLine(HouseKind, pl, sv).Loaded? {
      assert |LoadStructureLine(HouseKind, pl, sv).scene.houses| == |sv.houses| + 1;
    }
  }
}

=== FILE: entities.dfy ===
/**
 * The data model of src/scene.h and the typed errors that replace the
 * report_error_* functions of src/validation.c (each of which prints a
 * message and exits).
 */
module Entities {

  /** The three kinds of scene entity; each has its own identifier namespace. */
  datatype EntityKind = BuildingKind | HouseKind | AntennaKind

  /** The keyword that opens a line describing an entity of the given kind. */
  function Keyword(kind: EntityKind): string
  {
    match kind
    case BuildingKind => "building"
    case HouseKind => "house"
    case AntennaKind => "antenna"
  }

  /**
   * A building or a house (struct Building and struct House have the same
   * fields): the rectangle [x - w, x + w] x [y - h, y + h].
   */
  datatype Structure = Structure(id: string, x: int, y: int, w: int, h: int)

  type Building = Structure

  type House = Structure

  /** An antenna at (x, y) with range r. */
  datatype Antenna = Antenna(id: string, x: int, y: int, r: int)

  function StructureId(s: Structure): string { s.id }

  function AntennaId(a: Antenna): string { a.id }

  /** The contents of a scene, collection by collection, in store order. */
  datatype SceneValue = SceneValue(buildings: seq<Building>, houses: seq<House>, antennas: seq<Antenna>)

  const EmptyScene := SceneValue([], [], [])

  /** A line split into tokens, with the number of the line it came from (struct ParsedLine). */
  datatype ParsedLine = ParsedLine(tokens: seq<string>, lineNumber: int)

  /** The ways loading a scene fails; each stands for one error report of the source. */
  datatype LoadError =
    | FirstLine                                         // first line must be exactly 'begin scene'
    | LastLine                                          // last line must be exactly 'end scene'
    | NoToken                                           // line has no token
    | UnrecognizedLine(lineNumber: int)
    | WrongArgumentsNumber(kind: EntityKind, lineNumber: int)
    | InvalidIdentifier(token: string, lineNumber: int)
    | InvalidInt(token: string, lineNumber: int)
    | InvalidPositiveInt(token: string, lineNumber: int)
    | NonUniqueIdentifiers(kind: EntityKind, id: string)

  /** The message a validator writes, kept as its kind and the two identifiers it names. */
  datatype Message =
    | BuildingsOverlapping(id1: string, id2: string)
    | HousesOverlapping(id1: string, id2: string)
    | AntennasSamePosition(id1: string, id2: string)

  /** struct ValidationError */
  datatype ValidationError = ValidationError(hasError: bool, message: Message)

  /** An axis-aligned box [xmin, xmax] x [ymin, ymax]. */
  datatype Box = Box(xmin: int, xmax: int, ymin: int, ymax: int)
}

=== FILE: geometry.dfy ===
/**
 * The overlap predicates of src/scene.c and the pairwise search that the
 * validate_* functions run over the scene's arrays.
 */
module Geometry {
  import opened Entities

  function Max(a: int, b: int): int { if a < b then b else a }

  function Min(a: int, b: int): int { if a < b then a else b }

  /** [a1, b1] lies strictly inside [a2, b2] at both ends. */
  predicate StrictlyInside(a1: int, b1: int, a2: int, b2: int) { a2 < a1 && b1 < b2 }

  /**
   * are_intervals_overlapping: one interval starts no earlier than the other,
   * starts before the other ends, and ends no earlier than the other. This is
   * not plain intersection: it holds exactly when the intersection has
   * positive length and neither interval lies strictly inside the other.
   */
  predicate AreIntervalsOverlapping(a1: int, b1: int, a2: int, b2: int)
    ensures AreIntervalsOverlapping(a1, b1, a2, b2) <==>
              Max(a1, a2) < Min(b1, b2) && !StrictlyInside(a1, b1, a2, b2) && !StrictlyInside(a2, b2, a1, b1)
  {
    (a1 <= a2 && a2 < b1 && b1 <= b2) || (a2 <= a1 && a1 < b2 && b2 <= b1)
  }

  /** The predicate does not depend on which interval comes first. */
  lemma IntervalsOverlappingSymmetric(a1: int, b1: int, a2: int, b2: int)
    ensures AreIntervalsOverlapping(a1, b1, a2, b2) == AreIntervalsOverlapping(a2, b2, a1, b1)
  {
  }

  /** Overlap implies an intersection of positive length, but not conversely. */
  lemma IntervalsOverlappingSound(a1: int, b1: int, a2: int, b2: int)
    requires AreIntervalsOverlapping(a1, b1, a2, b2)
    ensures Max(a1, a2) < Min(b1, b2)
  {
  }

  /** The truth table on the discriminating cases. */
  lemma IntervalsTruthTable()
    ensures AreIntervalsOverlapping(0, 10, 0, 10)     // identical intervals
    ensures AreIntervalsOverlapping(0, 10, 5, 15)     // crossing intervals
    ensures !AreIntervalsOverlapping(0, 5, 5, 10)     // touching at an edge
    ensures !AreIntervalsOverlapping(0, 10, 2, 5)     // strictly nested, although they intersect
    ensures Max(0, 2) < Min(10, 5)
    ensures AreIntervalsOverlapping(0, 10, 0, 5)      // nested, sharing a start
  {
  }

  /**
   * are_building_overlapping, are_houses_overlapping and
   * are_building_house_overlapping: the x-extents overlap and the y-extents
   * overlap, both by the interval predicate.
   */
  predicate AreStructuresOverlapping(s1: Structure, s2: Structure)
    ensures AreStructuresOverlapping(s1, s2) ==>
              Max(s1.x - s1.w, s2.x - s2.w) < Min(s1.x + s1.w, s2.x + s2.w) &&
              Max(s1.y - s1.h, s2.y - s2.h) < Min(s1.y + s1.h, s2.y + s2.h)
  {
    AreIntervalsOverlapping(s1.x - s1.w, s1.x + s1.w, s2.x - s2.w, s2.x + s2.w) &&
    AreIntervalsOverlapping(s1.y - s1.h, s1.y + s1.h, s2.y - s2.h, s2.y + s2.h)
  }

  /** The order of the two structures does not matter. */
  lemma StructuresOverlappingSymmetric(s1: Structure, s2: Structure)
    ensures AreStructuresOverlapping(s1, s2) == AreStructuresOverlapping(s2, s1)
  {
  }

  /** have_antennas_same_position */
  predicate HaveAntennasSamePosition(a1: Antenna, a2: Antenna)
  {
    a1.x == a2.x && a1.y == a2.y
  }

  // Pairwise search, in the loop order of the validators

  /** Some pair i < j of `s` is related. */
  ghost predicate HasPair<T>(s: seq<T>, rel: (T, T) -> bool)
  {
    exists i, j :: 0 <= i < j < |s| && rel(s[i], s[j])
  }

  /** (i, j) is the first related pair i < j in the order of the nested loops. */
  ghost predicate IsFirstPair<T>(s: seq<T>, rel: (T, T) -> bool, i: int, j: int)
  {
    && 0 <= i < j < |s|
    && rel(s[i], s[j])
    && forall i', j' :: 0 <= i' < j' < |s| && (i' < i || (i' == i && j' < j)) ==> !rel(s[i'], s[j'])
  }

  /** Some element of `s` is related to some element of `t`. */
  ghost predicate HasCrossPair<T, U>(s: seq<T>, t: seq<U>, rel: (T, U) -> bool)
  {
    exists i, j :: 0 <= i < |s| && 0 <= j < |t| && rel(s[i], t[j])
  }

  /** (i, j) is the first related pair of `s` x `t`, `s` in the outer loop. */
  ghost predicate IsFirstCrossPair<T, U>(s: seq<T>, t: seq<U>, rel: (T, U) -> bool, i: int, j: int)
  {
    && 0 <= i < |s| && 0 <= j < |t|
    && rel(s[i], t[j])
    && forall i', j' :: 0 <= i' < |s| && 0 <= j' < |t| && (i' < i || (i' == i && j' < j)) ==> !rel(s[i'], t[j'])
  }

  /** The nested loops of validate_buildings, validate_houses and validate_antennas. */
  method FindFirstPair<T>(a: array<T>, n: nat, rel: (T, T) -> bool) returns (found: bool, i: nat, j: nat)
    requires n <= a.Length
    ensures found <==> HasPair(a[..n], rel)
    ensures found ==> IsFirstPair(a[..n], rel, i, j)
  {
    var p := 0;
    while p < n
      invariant 0 <= p <= n
      invariant forall i', j' :: 0 <= i' < p && i' < j' < n ==> !rel(a[i'], a[j'])
    {
      var q := p + 1;
      while q < n
        invariant p + 1 <= q <= n
        invariant forall j' :: p < j' < q ==> !rel(a[p], a[j'])
      {
        if rel(a[p], a[q]) {
          return true, p, q;
        }
        q := q + 1;
      }
      p := p + 1;
    }
    return false, 0, 0;
  }

  /** The nested loops of validate_buildings_houses_overlap. */
  method FindFirstCrossPair<T, U>(a: array<T>, n: nat, b: array<U>, m: nat, rel: (T, U) -> bool)
    returns (found: bool, i: nat, j: nat)
    requires n <= a.Length && m <= b.Length
    ensures found <==> HasCrossPair(a[..n], b[..m], rel)
    ensures found ==> IsFirstCrossPair(a[..n], b[..m], rel, i, j)
  {
    var p := 0;
    while p < n
      invariant 0 <= p <= n
      invariant forall i', j' :: 0 <= i' < p && 0 <= j' < m ==> !rel(a[i'], b[j'])
    {
      var q := 0;
      while q < m
        invariant 0 <= q <= m
        invariant forall j' :: 0 <= j' < q ==> !rel(a[p], b[j'])
      {
        if rel(a[p], b[q]) {
          return true, p, q;
        }
        q := q + 1;
      }
      p := p + 1;
    }
    return false, 0, 0;
  }

  // Bounding boxes

  /** The rectangle a building or house covers. */
  function StructureBox(s: Structure): Box { Box(s.x - s.w, s.x + s.w, s.y - s.h, s.y + s.h) }

  /** The square an antenna's range covers. */
  function AntennaBox(a: Antenna): Box { Box(a.x - a.r, a.x + a.r, a.y - a.r, a.y + a.r) }

  /** `outer` contains `inner`. */
  predicate Encloses(outer: Box, inner: Box)
  {
    outer.xmin <= inner.xmin && inner.xmax <= outer.xmax && outer.ymin <= inner.ymin && inner.ymax <= outer.ymax
  }

  /** One step of the bounding-box loops: each bound moves out to the new box's if that lies further out. */
  function Extend(acc: Box, b: Box): Box
  {
    Box(if b.xmin < acc.xmin then b.xmin else acc.xmin,
        if b.xmax > acc.xmax then b.xmax else acc.xmax,
        if b.ymin < acc.ymin then b.ymin else acc.ymin,
        if b.ymax > acc.ymax then b.ymax else acc.ymax)
  }

  /** The bounds accumulated from `seed` over `boxes`, in order. */
  function Hull(seed: Box, boxes: seq<Box>): Box
  {
    if |boxes| == 0 then seed else Extend(Hull(seed, boxes[..|boxes| - 1]), boxes[|boxes| - 1])
  }

  /** Accumulating over one more box is one more step. */
  lemma HullStep(seed: Box, boxes: seq<Box>, n: nat)
    requires n < |boxes|
    ensures Hull(seed, boxes[..n + 1]) == Extend(Hull(seed, boxes[..n]), boxes[n])
  {
    assert boxes[..n + 1][..n] == boxes[..n];
  }

  /** Accumulating over two runs of boxes is accumulating over the second from where the first left off. */
  lemma {:induction false} HullAppend(seed: Box, s: seq<Box>, t: seq<Box>)
    ensures Hull(seed, s + t) == Hull(Hull(seed, s), t)
    decreases |t|
  {
    if |t| == 0 {
      assert s + t == s;
    } else {
      var init := t[..|t| - 1];
      HullAppend(seed, s, init);
      assert (s + t)[..|s + t| - 1] == s + init;
    }
  }

  /**
   * The accumulated bounds enclose every box, lie no further in than the
   * seed, and each bound is the seed's or is attained by some box: it is the
   * minimum (maximum) of the seed and the boxes' bounds.
   */
  lemma {:induction false} HullIsTight(seed: Box, boxes: seq<Box>)
    ensures var r := Hull(seed, boxes);
      && (forall k :: 0 <= k < |boxes| ==> Encloses(r, boxes[k]))
      && r.xmin <= seed.xmin && r.xmax >= seed.xmax && r.ymin <= seed.ymin && r.ymax >= seed.ymax
      && (r.xmin == seed.xmin || exists k :: 0 <= k < |boxes| && boxes[k].xmin == r.xmin)
      && (r.xmax == seed.xmax || exists k :: 0 <= k < |boxes| && boxes[k].xmax == r.xmax)
      && (r.ymin == seed.ymin || exists k :: 0 <= k < |boxes| && boxes[k].ymin == r.ymin)
      && (r.ymax == seed.ymax || exists k :: 0 <= k < |boxes| && boxes[k].ymax == r.ymax)
  {
    if |boxes| > 0 {
      var n := |boxes| - 1;
      var init := boxes[..n];
      HullIsTight(seed, init);
      assert forall k :: 0 <= k < n ==> boxes[k] == init[k];
    }
  }
}

=== FILE: idorder.dfy ===
/**
 * The order strcmp puts on identifiers: character by character, a proper
 * prefix before any of its extensions (the terminating NUL sorts lowest).
 */
module IdOrder {

  /** strcmp(a, b) < 0 */
  predicate Less(a: string, b: string)
  {
    if |a| == 0 then |b| > 0
    else if |b| == 0 then false
    else if a[0] != b[0] then a[0] < b[0]
    else Less(a[1..], b[1..])
  }

  lemma {:induction false} LessIrreflexive(a: string)
    ensures !Less(a, a)
  {
    if |a| > 0 {
      LessIrreflexive(a[1..]);
    }
  }

  lemma {:induction false} LessAsymmetric(a: string, b: string)
    requires Less(a, b)
    ensures !Less(b, a)
  {
    if |a| > 0 && |b| > 0 && a[0] == b[0] {
      LessAsymmetric(a[1..], b[1..]);
    }
  }

  lemma {:induction false} LessTransitive(a: string, b: string, c: string)
    requires Less(a, b) && Less(b, c)
    ensures Less(a, c)
  {
    if |a| > 0 && a[0] == b[0] && b[0] == c[0] {
      LessTransitive(a[1..], b[1..], c[1..]);
    }
  }

  /** strcmp is a total order: two different identifiers are comparable. */
  lemma {:induction false} LessTotal(a: string, b: string)
    requires a != b
    ensures Less(a, b) || Less(b, a)
  {
    if |a| > 0 && |b| > 0 && a[0] == b[0] {
      assert a == [a[0]] + a[1..] && b == [b[0]] + b[1..];
      LessTotal(a[1..], b[1..]);
    }
  }
}

=== FILE: loader.dfy ===
/**
 * load_scene_from_stdin of src/scene.c: the input as a sequence of lines
 * (newlines removed). The first line must be exactly "begin scene"; a line
 * that is exactly "end scene" marks the end but does not stop the reading;
 * every other line is split into tokens and offered to the building, house
 * and antenna decoders in turn; the last line read must be "end scene".
 * Every error report of the source ends the program, so the first error is
 * the outcome.
 */
module Loader {
  import opened Wrappers
  import opened Entities
  import opened Tokenizer
  import opened Decoders
  import opened Store
  import opened IdOrder
  import opened SceneStore

  const BeginScene := "begin scene"
  const EndScene := "end scene"

  /** The local variables of the reading loop, and the scene filled so far. */
  datatype LoaderState = LoaderState(firstLine: bool, lastLine: bool, lineNumber: int, scene: SceneValue)

  /** Before the first line: nothing read, line numbers start at 1, the scene is empty. */
  const Init := LoaderState(true, false, 1, EmptyScene)

  /** One pass of the reading loop over `line`. */
  function Step(st: LoaderState, line: string): (r: Result<LoaderState, LoadError>)
    ensures r.Ok? ==>
              && r.value.lineNumber == st.lineNumber + 1
              && !r.value.firstLine
              && (r.value.lastLine <==> !st.firstLine && line == EndScene)
              && (st.firstLine || line == EndScene ==> r.value.scene == st.scene)
    ensures r.Err? ==> (r.error == FirstLine <==> st.firstLine)
    ensures r.Err? && r.error == NoToken ==> !st.firstLine && Tokens(line) == []
    ensures !st.firstLine && line != EndScene && Tokens(line) == [] ==> r == Err(NoToken)
    ensures !st.firstLine && line != EndScene && |Tokens(line)| > 0 ==>
              var pl := ParsedLine(Tokens(line), st.lineNumber);
              && (pl.tokens[0] !in {"building", "house", "antenna"} ==> r == Err(UnrecognizedLine(st.lineNumber)))
              && (DecodeStructure(BuildingKind, pl).Invalid? ==> r == Err(DecodeStructure(BuildingKind, pl).error))
              && (DecodeStructure(HouseKind, pl).Invalid? ==> r == Err(DecodeStructure(HouseKind, pl).error))
              && (DecodeAntenna(pl).Invalid? ==> r == Err(DecodeAntenna(pl).error))
  {
    var st := st.(lastLine := false);
    if st.firstLine then
      if line != BeginScene then Err(FirstLine)
      else Ok(st.(firstLine := false, lineNumber := st.lineNumber + 1))
    else if line == EndScene then
      Ok(st.(lastLine := true, lineNumber := st.lineNumber + 1))
    else
      var toks := Tokens(line);
      if |toks| == 0 then Err(NoToken)
      else
        LoadLineRecognizes(ParsedLine(toks, st.lineNumber), st.scene);
        match LoadLine(ParsedLine(toks, st.lineNumber), st.scene)
        case NotMine => Err(UnrecognizedLine(st.lineNumber))
        case Failed(e) => Err(e)
        case Loaded(sv) => Ok(st.(scene := sv, lineNumber := st.lineNumber + 1))
  }

  /** The reading loop over `lines`, stopping at the first error. */
  function Run(st: LoaderState, lines: seq<string>): Result<LoaderState, LoadError>
    decreases |lines|
  {
    if |lines| == 0 then Ok(st)
    else
      match Step(st, lines[0])
      case Err(e) => Err(e)
      case Ok(st') => Run(st', lines[1..])
  }

  /** The whole of load_scene_from_stdin: the loop, then the check on the last line. */
  function Load(lines: seq<string>): Result<SceneValue, LoadError>
  {
    match Run(Init, lines)
    case Err(e) => Err(e)
    case Ok(st) => if st.lastLine then Ok(st.scene) else Err(LastLine)
  }

  /** Running over a nonempty input: the line number advances by one per line, and the last flag is set only by an "end scene" last line. */
  lemma {:induction false} RunLastLine(st: LoaderState, lines: seq<string>)
    requires |lines| > 0 && Run(st, lines).Ok?
    ensures Run(st, lines).value.lineNumber == st.lineNumber + |lines|
    ensures !Run(st, lines).value.firstLine
    ensures Run(st, lines).value.lastLine ==> !(st.firstLine && |lines| == 1) && lines[|lines| - 1] == EndScene
    decreases |lines|
  {
    if |lines| > 1 {
      RunLastLine(Step(st, lines[0]).value, lines[1..]);
      assert lines[1..][|lines[1..]| - 1] == lines[|lines| - 1];
    }
  }

  /**
   * A loaded scene comes from at least two lines, the first "begin scene"
   * and the last "end scene"; no input at all fails on the last line.
   */
  lemma LoadFraming(lines: seq<string>)
    ensures Load(lines).Ok? ==> |lines| >= 2 && lines[0] == BeginScene && lines[|lines| - 1] == EndScene
    ensures |lines| > 0 && lines[0] != BeginScene ==> Load(lines) == Err(FirstLine)
    ensures |lines| == 0 ==> Load(lines) == Err(LastLine)
  {
    if |lines| > 0 && Run(Init, lines).Ok? {
      RunLastLine(Init, lines);
    }
  }

  /** The scene stays sorted, with valid entities, across the loop. */
  lemma {:induction false} RunWellFormed(st: LoaderState, lines: seq<string>)
    requires WellFormed(st.scene)
    ensures Run(st, lines).Ok? ==> WellFormed(Run(st, lines).value.scene)
    decreases |lines|
  {
    if |lines| > 0 {
      var toks := Tokens(lines[0]);
      if !st.firstLine && lines[0] != EndScene && |toks| > 0 {
        LoadLineWellFormed(ParsedLine(toks, st.lineNumber), st.scene);
      }
      if Step(st, lines[0]).Ok? {
        RunWellFormed(Step(st, lines[0]).value, lines[1..]);
      }
    }
  }

  /** Every loaded scene is well formed: each collection strictly ascending by identifier, each entity valid. */
  lemma LoadWellFormed(lines: seq<string>)
    ensures Load(lines).Ok? ==> WellFormed(Load(lines).value)
  {
    RunWellFormed(Init, lines);
  }

  /** The building the decoders read from one line numbered n; "end scene" and blank lines hold none. */
  function LineBuildings(line: string, n: int): multiset<Structure>
  {
    if line != EndScene && |Tokens(line)| > 0 then StructureOf(BuildingKind, ParsedLine(Tokens(line), n)) else multiset{}
  }

  /** The house the decoders read from one line numbered n. */
  function LineHouses(line: string, n: int): multiset<Structure>
  {
    if line != EndScene && |Tokens(line)| > 0 then StructureOf(HouseKind, ParsedLine(Tokens(line), n)) else multiset{}
  }

  /** The antenna the decoder reads from one line numbered n. */
  function LineAntennas(line: string, n: int): multiset<Antenna>
  {
    if line != EndScene && |Tokens(line)| > 0 then AntennaOf(ParsedLine(Tokens(line), n)) else multiset{}
  }

  /** What the lines numbered from n hold together, when `per` tells what one line holds. */
  function Gather<T>(per: (string, int) -> multiset<T>, lines: seq<string>, n: int): multiset<T>
    decreases |lines|
  {
    if |lines| == 0 then multiset{} else per(lines[0], n) + Gather(per, lines[1..], n + 1)
  }

  /** After the first line, a step that succeeds adds to each collection exactly what its line holds. */
  lemma StepContents(st: LoaderState, line: string)
    requires !st.firstLine && Step(st, line).Ok?
    ensures var sv := Step(st, line).value.scene;
      && multiset(sv.buildings) == multiset(st.scene.buildings) + LineBuildings(line, st.lineNumber)
      && multiset(sv.houses) == multiset(st.scene.houses) + LineHouses(line, st.lineNumber)
      && multiset(sv.antennas) == multiset(st.scene.antennas) + LineAntennas(line, st.lineNumber)
  {
    if line != EndScene {
      StepDecodes(st, line);
      LoadLineContents(ParsedLine(Tokens(line), st.lineNumber), st.scene);
    }
  }

  /**
   * Contents induction over a run: if every successful step after the first
   * line adds to `count` what `per` says its line holds, a whole run adds
   * what the lines hold together.
   */
  lemma {:induction false} RunAccumulates<T>(count: SceneValue -> multiset<T>, per: (string, int) -> multiset<T>,
                                            st: LoaderState, lines: seq<string>, fin: LoaderState)
    requires forall s: LoaderState, line: string :: !s.firstLine && Step(s, line).Ok? ==>
               count(Step(s, line).value.scene) == count(s.scene) + per(line, s.lineNumber)
    requires !st.firstLine && Run(st, lines) == Ok(fin)
    ensures count(fin.scene) == count(st.scene) + Gather(per, lines, st.lineNumber)
    decreases |lines|
  {
    if |lines| > 0 {
      var st' := Step(st, lines[0]).value;
      assert Run(st, lines) == Run(st', lines[1..]);
      assert count(st'.scene) == count(st.scene) + per(lines[0], st.lineNumber);
      RunAccumulates(count, per, st', lines[1..], fin);
      assert Gather(per, lines, st.lineNumber) == per(lines[0], st.lineNumber) + Gather(per, lines[1..], st'.lineNumber);
    }
  }

  /**
   * A loaded scene holds exactly the buildings, houses and antennas that the
   * lines after "begin scene" describe, whatever order they come in.
   */
  lemma LoadContents(lines: seq<string>)
    requires Load(lines).Ok?
    ensures |lines| >= 2
    ensures multiset(Load(lines).value.buildings) == Gather(LineBuildings, lines[1..], 2)
    ensures multiset(Load(lines).value.houses) == Gather(LineHouses, lines[1..], 2)
    ensures multiset(Load(lines).value.antennas) == Gather(LineAntennas, lines[1..], 2)
  {
    LoadFraming(lines);
    var st := LoaderState(false, false, 2, EmptyScene);
    assert Step(Init, lines[0]) == Ok(st);
    assert Run(Init, lines) == Run(st, lines[1..]);
    var fin := Run(st, lines[1..]).value;
    forall s: LoaderState, line: string | !s.firstLine && Step(s, line).Ok?
      ensures var sv := Step(s, line).value.scene;
        && multiset(sv.buildings) == multiset(s.scene.buildings) + LineBuildings(line, s.lineNumber)
        && multiset(sv.houses) == multiset(s.scene.houses) + LineHouses(line, s.lineNumber)
        && multiset(sv.antennas) == multiset(s.scene.antennas) + LineAntennas(line, s.lineNumber)
    {
      StepContents(s, line);
    }
    RunAccumulates((sv: SceneValue) => multiset(sv.buildings), LineBuildings, st, lines[1..], fin);
    RunAccumulates((sv: SceneValue) => multiset(sv.houses), LineHouses, st, lines[1..], fin);
    RunAccumulates((sv: SceneValue) => multiset(sv.antennas), LineAntennas, st, lines[1..], fin);
  }

  /**
   * The loaded scene depends only on the entities the lines hold: two inputs
   * that load and describe the same buildings, houses and antennas, in any
   * order, load to the same scene.
   */
  lemma LoadDeterminedByContents(lines1: seq<string>, lines2: seq<string>)
    requires Load(lines1).Ok? && Load(lines2).Ok?
    requires |lines1| > 0 && |lines2| > 0
    requires Gather(LineBuildings, lines1[1..], 2) == Gather(LineBuildings, lines2[1..], 2)
    requires Gather(LineHouses, lines1[1..], 2) == Gather(LineHouses, lines2[1..], 2)
    requires Gather(LineAntennas, lines1[1..], 2) == Gather(LineAntennas, lines2[1..], 2)
    ensures Load(lines1) == Load(lines2)
  {
    var sv1, sv2 := Load(lines1).value, Load(lines2).value;
    LoadContents(lines1);
    LoadContents(lines2);
    LoadWellFormed(lines1);
    LoadWellFormed(lines2);
    SortedUnique(sv1.buildings, sv2.buildings, StructureId);
    SortedUnique(sv1.houses, sv2.houses, StructureId);
    SortedUnique(sv1.antennas, sv2.antennas, AntennaId);
  }

  /** A line is unrecognized only after the first one, when it is not "end scene" and no keyword opens it. */
  lemma StepUnrecognized(st: LoaderState, line: string, n: int)
    requires Step(st, line) == Err(UnrecognizedLine(n))
    ensures n == st.lineNumber && !st.firstLine
    ensures line != EndScene && |Tokens(line)| > 0 && Tokens(line)[0] !in {"building", "house", "antenna"}
  {
    var toks := Tokens(line);
    LoadLineRecognizes(ParsedLine(toks, st.lineNumber), st.scene);
  }

  /**
   * An unrecognized line is reported with its own number, counted over all
   * lines read: it is neither the first line nor "end scene", and its first
   * token is none of the three keywords.
   */
  lemma {:induction false} RunUnrecognized(st: LoaderState, lines: seq<string>, n: int)
    requires Run(st, lines) == Err(UnrecognizedLine(n))
    ensures st.lineNumber <= n < st.lineNumber + |lines|
    ensures st.firstLine ==> n > st.lineNumber
    ensures var line := lines[n - st.lineNumber];
      && line != EndScene
      && |Tokens(line)| > 0
      && Tokens(line)[0] !in {"building", "house", "antenna"}
    decreases |lines|
  {
    var step := Step(st, lines[0]);
    if step.Err? {
      StepUnrecognized(st, lines[0], n);
    } else {
      var st' := step.value;
      assert st'.lineNumber == st.lineNumber + 1;
      RunUnrecognized(st', lines[1..], n);
      assert lines[1..][n - st'.lineNumber] == lines[n - st.lineNumber];
    }
  }

  /** The same from the start of the input: line numbers 2 to |lines|. */
  lemma LoadUnrecognized(lines: seq<string>, n: int)
    requires Load(lines) == Err(UnrecognizedLine(n))
    ensures 2 <= n <= |lines|
    ensures var line := lines[n - 1];
      && line != EndScene
      && |Tokens(line)| > 0
      && Tokens(line)[0] !in {"building", "house", "antenna"}
  {
    RunUnrecognized(Init, lines, n);
  }

  /** Reading a + b is reading a, then reading b from where a left off. */
  lemma {:induction false} RunAppend(st: LoaderState, a: seq<string>, b: seq<string>)
    requires Run(st, a).Ok?
    ensures Run(st, a + b) == Run(Run(st, a).value, b)
    decreases |a|
  {
    if |a| == 0 {
      assert a + b == b;
    } else {
      assert (a + b)[0] == a[0];
      assert (a + b)[1..] == a[1..] + b;
      RunAppend(Step(st, a[0]).value, a[1..], b);
    }
  }

  /**
   * Conversely, once the first k lines have been read without error, a
   * following line that is not "end scene" and that no keyword opens stops
   * the loading with the unrecognized-line error, numbered k + 1.
   */
  lemma LoadReportsUnrecognized(lines: seq<string>, k: nat)
    requires 1 <= k < |lines| && Run(Init, lines[..k]).Ok?
    requires lines[k] != EndScene && |Tokens(lines[k])| > 0
    requires Tokens(lines[k])[0] !in {"building", "house", "antenna"}
    ensures Load(lines) == Err(UnrecognizedLine(k + 1))
  {
    assert lines == lines[..k] + lines[k..];
    RunAppend(Init, lines[..k], lines[k..]);
    RunLastLine(Init, lines[..k]);
    var st := Run(Init, lines[..k]).value;
    assert Step(st, lines[k]) == Err(UnrecognizedLine(k + 1));
    assert lines[k..][0] == lines[k];
  }

  /** The second line of LoadReportsFieldError, read after "begin scene". */
  lemma StepNegativeHalfSize(st: LoaderState)
    requires st == LoaderState(false, false, 2, EmptyScene)
    ensures Step(st, "building bx 0 0 -1 1") == Err(InvalidPositiveInt("-1", 2))
  {
    var toks := ["building", "bx", "0", "0", "-1", "1"];
    assert Join(toks) == "building bx 0 0 -1 1";
    TokensOfJoin(toks);
    DecodeErrorExamples();
  }

  /** A field error of a decoder ends the loading with that error: a negative half-size is not a positive integer. */
  lemma LoadReportsFieldError()
    ensures Load([BeginScene, "building bx 0 0 -1 1", EndScene]) == Err(InvalidPositiveInt("-1", 2))
  {
    var s1 := LoaderState(false, false, 2, EmptyScene);
    assert Step(Init, BeginScene) == Ok(s1);
    StepNegativeHalfSize(s1);
    assert Run(s1, ["building bx 0 0 -1 1", EndScene]) == Err(InvalidPositiveInt("-1", 2));
    assert [BeginScene, "building bx 0 0 -1 1", EndScene] == [BeginScene] + ["building bx 0 0 -1 1", EndScene];
  }

  /** The tokens of the first building line of LoadSortsById. */
  lemma TokensB2()
    ensures Tokens("building b2 10 10 1 1") == ["building", "b2", "10", "10", "1", "1"]
  {
    var toks := ["building", "b2", "10", "10", "1", "1"];
    assert Join(toks) == "building b2 10 10 1 1";
    TokensOfJoin(toks);
  }

  /** The tokens of the second building line of LoadSortsById. */
  lemma TokensB1()
    ensures Tokens("building b1 0 0 2 2") == ["building", "b1", "0", "0", "2", "2"]
  {
    var toks := ["building", "b1", "0", "0", "2", "2"];
    assert Join(toks) == "building b1 0 0 2 2";
    TokensOfJoin(toks);
  }

  /** The first building line of LoadSortsById, read into the empty scene. */
  lemma StepB2()
    ensures Step(LoaderState(false, false, 2, EmptyScene), "building b2 10 10 1 1")
              == Ok(LoaderState(false, false, 3, SceneValue([Structure("b2", 10, 10, 1, 1)], [], [])))
  {
    TokensB2();
    LoadLineIntoEmpty();
    StepDecodes(LoaderState(false, false, 2, EmptyScene), "building b2 10 10 1 1");
  }

  /** The second building line of LoadSortsById. */
  lemma StepB1()
    ensures Step(LoaderState(false, false, 3, SceneValue([Structure("b2", 10, 10, 1, 1)], [], [])), "building b1 0 0 2 2")
              == Ok(LoaderState(false, false, 4, SceneValue([Structure("b1", 0, 0, 2, 2), Structure("b2", 10, 10, 1, 1)], [], [])))
  {
    TokensB1();
    LoadLinePlacesFirst();
    StepDecodes(LoaderState(false, false, 3, SceneValue([Structure("b2", 10, 10, 1, 1)], [], [])), "building b1 0 0 2 2");
  }

  /** Buildings given in descending order of identifier are loaded in ascending order. */
  lemma LoadSortsById()
    ensures Load([BeginScene, "building b2 10 10 1 1", "building b1 0 0 2 2", EndScene])
              == Ok(SceneValue([Structure("b1", 0, 0, 2, 2), Structure("b2", 10, 10, 1, 1)], [], []))
  {
    var sv := SceneValue([Structure("b1", 0, 0, 2, 2), Structure("b2", 10, 10, 1, 1)], [], []);
    var s1 := LoaderState(false, false, 2, EmptyScene);
    var s2 := LoaderState(false, false, 3, SceneValue([Structure("b2", 10, 10, 1, 1)], [], []));
    var s3 := LoaderState(false, false, 4, sv);
    var s4 := LoaderState(false, true, 5, sv);
    assert Step(Init, BeginScene) == Ok(s1);
    StepB2();
    StepB1();
    assert Step(s3, EndScene) == Ok(s4);
    var lines := [BeginScene, "building b2 10 10 1 1", "building b1 0 0 2 2", EndScene];
    assert Run(s4, lines[4..]) == Ok(s4);
    assert Run(s3, lines[3..]) == Ok(s4);
    assert Run(s2, lines[2..]) == Ok(s4);
    assert Run(s1, lines[1..]) == Ok(s4);
  }

  /** "end scene" does not stop the reading: lines after it are still decoded, and an empty one is an error. */
  lemma ReadingGoesOnAfterEndScene()
    ensures Load([BeginScene, EndScene, "tree", EndScene]) == Err(UnrecognizedLine(3))
    ensures Load([BeginScene, EndScene, "", EndScene]) == Err(NoToken)
    ensures Load([BeginScene, EndScene]) == Ok(EmptyScene)
  {
    var s1 := LoaderState(false, false, 2, EmptyScene);
    var s2 := LoaderState(false, true, 3, EmptyScene);
    assert Step(Init, BeginScene) == Ok(s1);
    assert Step(s1, EndScene) == Ok(s2);
    assert Run(s2, []) == Ok(s2);
    assert Run(s1, [EndScene]) == Ok(s2);
    assert Run(Init, [BeginScene, EndScene]) == Ok(s2);

    TokensOfJoin(["tree"]);
    LoadLineRecognizes(ParsedLine(["tree"], 3), EmptyScene);
    assert Step(s2, "tree") == Err(UnrecognizedLine(3));
    var tail := ["tree", EndScene];
    assert Run(s2, tail) == Err(UnrecognizedLine(3));
    assert Run(s1, [EndScene] + tail) == Err(UnrecognizedLine(3));
    assert [BeginScene, EndScene, "tree", EndScene] == [BeginScene] + ([EndScene] + tail);

    assert Tokens("") == [];
    var tail' := ["", EndScene];
    assert Run(s2, tail') == Err(NoToken);
    assert Run(s1, [EndScene] + tail') == Err(NoToken);
    assert [BeginScene, EndScene, "", EndScene] == [BeginScene] + ([EndScene] + tail');
  }

  /** Reading from line i on is one step over line i, then reading from line i + 1 on. */
  lemma RunUnfold(st: LoaderState, lines: seq<string>, i: nat)
    requires i < |lines|
    ensures Run(st, lines[i..]) ==
              match Step(st, lines[i])
              case Err(e) => Err(e)
              case Ok(st') => Run(st', lines[i + 1..])
  {
    assert lines[i..][1..] == lines[i + 1..];
  }

  /**
   * The decoder chain of the reading loop: building, then house, then
   * antenna; a line none of them claims is reported as unrecognized.
   */
  method LoadParsedLine(scene: Scene, pl: ParsedLine) returns (err: Option<LoadError>)
    requires scene.Valid() && |pl.tokens| > 0
    requires scene.numBuildings < scene.buildings.Length && scene.numHouses < scene.houses.Length
    requires scene.numAntennas < scene.antennas.Length
    modifies scene, scene.buildings, scene.houses, scene.antennas
    ensures scene.Valid()
    ensures scene.buildings == old(scene.buildings) && scene.houses == old(scene.houses) && scene.antennas == old(scene.antennas)
    ensures match LoadLine(pl, old(scene.Value()))
      case NotMine => err == Some(UnrecognizedLine(pl.lineNumber)) && scene.Value() == old(scene.Value())
      case Failed(e) => err == Some(e)
      case Loaded(sv) => err == None && scene.Value() == sv
  {
    var mine, e := scene.LoadBuildingFromParsedLine(pl);
    if !mine {
      mine, e := scene.LoadHouseFromParsedLine(pl);
      if !mine {
        mine, e := scene.LoadAntennaFromParsedLine(pl);
        if !mine {
          return Some(UnrecognizedLine(pl.lineNumber));
        }
      }
    }
    return e;
  }

  /** A later line that no keyword opens is the unrecognized-line error with its own number. */
  lemma StepNotMine(st: LoaderState, line: string)
    requires !st.firstLine && line != EndScene && |Tokens(line)| > 0
    requires LoadLine(ParsedLine(Tokens(line), st.lineNumber), st.scene).NotMine?
    ensures Step(st, line) == Err(UnrecognizedLine(st.lineNumber))
  {
  }

  /** A later line the decoder chain fails on is that failure. */
  lemma StepFailed(st: LoaderState, line: string)
    requires !st.firstLine && line != EndScene && |Tokens(line)| > 0
    requires LoadLine(ParsedLine(Tokens(line), st.lineNumber), st.scene).Failed?
    ensures Step(st, line) == Err(LoadLine(ParsedLine(Tokens(line), st.lineNumber), st.scene).error)
  {
  }

  /** A later line the decoder chain loads moves on to the next line with the scene it leaves. */
  lemma StepLoaded(st: LoaderState, line: string)
    requires !st.firstLine && line != EndScene && |Tokens(line)| > 0
    requires LoadLine(ParsedLine(Tokens(line), st.lineNumber), st.scene).Loaded?
    ensures Step(st, line) == Ok(LoaderState(false, false, st.lineNumber + 1, LoadLine(ParsedLine(Tokens(line), st.lineNumber), st.scene).scene))
  {
  }

  /** A later line other than "end scene" that has tokens is handed to the decoder chain. */
  lemma StepDecodes(st: LoaderState, line: string)
    requires !st.firstLine && line != EndScene && |Tokens(line)| > 0
    ensures Step(st, line) ==
              match LoadLine(ParsedLine(Tokens(line), st.lineNumber), st.scene)
              case NotMine => Err(UnrecognizedLine(st.lineNumber))
              case Failed(e) => Err(e)
              case Loaded(sv) => Ok(LoaderState(false, false, st.lineNumber + 1, sv))
  {
    var pl := ParsedLine(Tokens(line), st.lineNumber);
    match LoadLine(pl, st.scene)
    case NotMine => StepNotMine(st, line);
    case Failed(e) => StepFailed(st, line);
    case Loaded(sv) => StepLoaded(st, line);
  }

  /**
   * One pass of the reading loop of load_scene_from_stdin on the store: the
   * outcome is Step's, and on success the store holds the scene Step leaves.
   */
  method ReadLine(scene: Scene, firstLine: bool, lastLine: bool, lineNumber: int, line: string)
      returns (firstLine': bool, lastLine': bool, err: Option<LoadError>)
    requires scene.Valid()
    requires scene.numBuildings < scene.buildings.Length && scene.numHouses < scene.houses.Length
    requires scene.numAntennas < scene.antennas.Length
    modifies scene, scene.buildings, scene.houses, scene.antennas
    ensures scene.Valid()
    ensures scene.buildings == old(scene.buildings) && scene.houses == old(scene.houses) && scene.antennas == old(scene.antennas)
    ensures err == None ==> Size(scene.Value()) <= Size(old(scene.Value())) + 1
    ensures match Step(LoaderState(firstLine, lastLine, lineNumber, old(scene.Value())), line)
      case Err(e) => err == Some(e)
      case Ok(st) => err == None && st == LoaderState(firstLine', lastLine', lineNumber + 1, scene.Value())
  {
    ghost var st := LoaderState(firstLine, lastLine, lineNumber, scene.Value());
    firstLine', lastLine', err := firstLine, false, None;
    if firstLine {
      if line != BeginScene {
        err := Some(FirstLine);
        return;
      }
      firstLine' := false;
    } else if line == EndScene {
      lastLine' := true;
    } else {
      var pl := ParseLine(line, lineNumber);
      if |pl.tokens| == 0 {
        err := Some(NoToken);
        return;
      }
      LoadLineAddsOne(pl, scene.Value());
      StepDecodes(st, line);
      err := LoadParsedLine(scene, pl);
    }
  }

  /**
   * load_scene_from_stdin over a store sized for the input: the outcome is
   * the first error of Load, or, on success, a store holding Load's scene.
   */
  method LoadSceneFromLines(lines: seq<string>) returns (scene: Scene, err: Option<LoadError>)
    ensures scene.Valid()
    ensures match Load(lines)
      case Ok(sv) => err == None && scene.Value() == sv
      case Err(e) => err == Some(e)
  {
    scene := new Scene(|lines|);
    var firstLine, lastLine, lineNumber := true, false, 1;
    var i := 0;
    while i < |lines|
      invariant 0 <= i <= |lines|
      invariant scene.Valid()
      invariant fresh(scene.buildings) && fresh(scene.houses) && fresh(scene.antennas)
      invariant scene.buildings.Length == |lines| && scene.houses.Length == |lines| && scene.antennas.Length == |lines|
      invariant Size(scene.Value()) <= i
      invariant Run(Init, lines) == Run(LoaderState(firstLine, lastLine, lineNumber, scene.Value()), lines[i..])
    {
      ghost var step := Step(LoaderState(firstLine, lastLine, lineNumber, scene.Value()), lines[i]);
      RunUnfold(LoaderState(firstLine, lastLine, lineNumber, scene.Value()), lines, i);
      firstLine, lastLine, err := ReadLine(scene, firstLine, lastLine, lineNumber, lines[i]);
      if err.Some? {
        return;
      }
      assert step == Ok(LoaderState(firstLine, lastLine, lineNumber + 1, scene.Value()));
      lineNumber := lineNumber + 1;
      i := i + 1;
    }
    if !lastLine {
      err := Some(LastLine);
      return;
    }
    err := None;
  }

}

=== FILE: scene.dfy ===
/**
 * struct Scene of src/scene.h and the functions of src/scene.c that work on
 * it: three arrays with a count each, kept in ascending identifier order by
 * shift-on-insert; the per-line loaders; the pairwise validators; emptiness;
 * and the bounding-box computation.
 */
module SceneStore {
  import opened Wrappers
  import opened Entities
  import opened Store
  import opened Geometry
  import opened Decoders

  const INT_MAX: int := 0x7fff_ffff
  const INT_MIN: int := -0x8000_0000

  /** The starting bounds of the bounding-box loops. */
  const SeedBox := Box(INT_MAX, INT_MIN, INT_MAX, INT_MIN)

  /** The extent of each structure, in order. */
  function StructureBoxes(bs: seq<Structure>): seq<Box>
  {
    seq(|bs|, k requires 0 <= k < |bs| => StructureBox(bs[k]))
  }

  /** The extent of each antenna, in order. */
  function AntennaBoxes(ants: seq<Antenna>): seq<Box>
  {
    seq(|ants|, k requires 0 <= k < |ants| => AntennaBox(ants[k]))
  }

  /** The boxes the bounding box is taken over: buildings, then antennas. Houses take no part. */
  function Extents(sv: SceneValue): seq<Box>
  {
    StructureBoxes(sv.buildings) + AntennaBoxes(sv.antennas)
  }

  /** The building loop of print_scene_bounding_box: pushes the bounds `acc` out over the first `n` structures. */
  method ExtendOverStructures(bs: array<Structure>, n: nat, acc: Box) returns (r: Box)
    requires n <= bs.Length
    ensures r == Hull(acc, StructureBoxes(bs[..n]))
  {
    ghost var boxes := StructureBoxes(bs[..n]);
    var xmin, xmax, ymin, ymax := acc.xmin, acc.xmax, acc.ymin, acc.ymax;
    var b := 0;
    while b < n
      invariant 0 <= b <= n
      invariant Box(xmin, xmax, ymin, ymax) == Hull(acc, boxes[..b])
    {
      HullStep(acc, boxes, b);
      var x, y, w, h := bs[b].x, bs[b].y, bs[b].w, bs[b].h;
      xmin := if x - w < xmin then x - w else xmin;
      xmax := if x + w > xmax then x + w else xmax;
      ymin := if y - h < ymin then y - h else ymin;
      ymax := if y + h > ymax then y + h else ymax;
      b := b + 1;
    }
    assert boxes[..n] == boxes;
    r := Box(xmin, xmax, ymin, ymax);
  }

  /** The antenna loop of print_scene_bounding_box: pushes the bounds `acc` out over the first `n` antennas. */
  method ExtendOverAntennas(ants: array<Antenna>, n: nat, acc: Box) returns (r: Box)
    requires n <= ants.Length
    ensures r == Hull(acc, AntennaBoxes(ants[..n]))
  {
    ghost var boxes := AntennaBoxes(ants[..n]);
    var xmin, xmax, ymin, ymax := acc.xmin, acc.xmax, acc.ymin, acc.ymax;
    var a := 0;
    while a < n
      invariant 0 <= a <= n
      invariant Box(xmin, xmax, ymin, ymax) == Hull(acc, boxes[..a])
    {
      HullStep(acc, boxes, a);
      var x, y, rr := ants[a].x, ants[a].y, ants[a].r;
      xmin := if x - rr < xmin then x - rr else xmin;
      xmax := if x + rr > xmax then x + rr else xmax;
      ymin := if y - rr < ymin then y - rr else ymin;
      ymax := if y + rr > ymax then y + rr else ymax;
      a := a + 1;
    }
    assert boxes[..n] == boxes;
    r := Box(xmin, xmax, ymin, ymax);
  }

  // What the validators write into the error structure

  ghost predicate ReportsBuildingPair(bs: seq<Building>, e: ValidationError)
  {
    exists i, j :: IsFirstPair(bs, AreStructuresOverlapping, i, j) &&
      e == ValidationError(true, BuildingsOverlapping(bs[i].id, bs[j].id))
  }

  ghost predicate ReportsHousePair(hs: seq<House>, e: ValidationError)
  {
    exists i, j :: IsFirstPair(hs, AreStructuresOverlapping, i, j) &&
      e == ValidationError(true, HousesOverlapping(hs[i].id, hs[j].id))
  }

  /** The building/house pair is reported with the building message. */
  ghost predicate ReportsCrossPair(bs: seq<Building>, hs: seq<House>, e: ValidationError)
  {
    exists i, j :: IsFirstCrossPair(bs, hs, AreStructuresOverlapping, i, j) &&
      e == ValidationError(true, BuildingsOverlapping(bs[i].id, hs[j].id))
  }

  ghost predicate ReportsAntennaPair(ans: seq<Antenna>, e: ValidationError)
  {
    exists i, j :: IsFirstPair(ans, HaveAntennasSamePosition, i, j) &&
      e == ValidationError(true, AntennasSamePosition(ans[i].id, ans[j].id))
  }

  class Scene {
    var buildings: array<Building>
    var numBuildings: nat
    var houses: array<House>
    var numHouses: nat
    var antennas: array<Antenna>
    var numAntennas: nat

    ghost predicate InBounds()
      reads this
    {
      numBuildings <= buildings.Length && numHouses <= houses.Length && numAntennas <= antennas.Length
    }

    /** The entities in use, collection by collection. */
    ghost function Value(): SceneValue
      reads this, buildings, houses, antennas
      requires InBounds()
    {
      SceneValue(buildings[..numBuildings], houses[..numHouses], antennas[..numAntennas])
    }

    /** The store invariant: counts within the arrays, two distinct structure arrays, identifiers ascending. */
    ghost predicate Valid()
      reads this, buildings, houses, antennas
    {
      InBounds() && buildings != houses && Sorted(Value())
    }

    /** initialize_empty_scene, with arrays of the given capacity. */
    constructor (capacity: nat)
      ensures Valid() && Value() == EmptyScene
      ensures buildings.Length == capacity && houses.Length == capacity && antennas.Length == capacity
      ensures fresh(buildings) && fresh(houses) && fresh(antennas)
    {
      buildings := new Building[capacity];
      houses := new House[capacity];
      antennas := new Antenna[capacity];
      numBuildings, numHouses, numAntennas := 0, 0, 0;
    }

    /** add_building: insert in identifier order, or refuse a duplicate identifier and change nothing. */
    method AddBuilding(b: Building) returns (err: Option<LoadError>)
      requires Valid() && numBuildings < buildings.Length
      modifies this, buildings
      ensures Valid()
      ensures buildings == old(buildings) && houses == old(houses) && antennas == old(antennas)
      ensures match WithStructure(BuildingKind, old(Value()), b)
        case Ok(sv) => err == None && Value() == sv
        case Err(e) => err == Some(e) && Value() == old(Value())
    {
      WithStructureKeepsSorted(BuildingKind, Value(), b);
      var inserted := InsertInPlace(buildings, numBuildings, b, StructureId);
      if !inserted {
        assert buildings[..numBuildings] == old(buildings[..numBuildings]);
        return Some(NonUniqueIdentifiers(BuildingKind, b.id));
      }
      numBuildings := numBuildings + 1;
      return None;
    }

    /**
     * add_house, which is not part of this model's source: taken to be the
     * same sorted insert as add_building.
     */
    method AddHouse(h: House) returns (err: Option<LoadError>)
      requires Valid() && numHouses < houses.Length
      modifies this, houses
      ensures Valid()
      ensures buildings == old(buildings) && houses == old(houses) && antennas == old(antennas)
      ensures match WithStructure(HouseKind, old(Value()), h)
        case Ok(sv) => err == None && Value() == sv
        case Err(e) => err == Some(e) && Value() == old(Value())
    {
      WithStructureKeepsSorted(HouseKind, Value(), h);
      var inserted := InsertInPlace(houses, numHouses, h, StructureId);
      if !inserted {
        assert houses[..numHouses] == old(houses[..numHouses]);
        return Some(NonUniqueIdentifiers(HouseKind, h.id));
      }
      numHouses := numHouses + 1;
      return None;
    }

    /** add_antenna: insert in identifier order, or refuse a duplicate identifier and change nothing. */
    method AddAntenna(a: Antenna) returns (err: Option<LoadError>)
      requires Valid() && numAntennas < antennas.Length
      modifies this, antennas
      ensures Valid()
      ensures buildings == old(buildings) && houses == old(houses) && antennas == old(antennas)
      ensures match WithAntenna(old(Value()), a)
        case Ok(sv) => err == None && Value() == sv
        case Err(e) => err == Some(e) && Value() == old(Value())
    {
      WithAntennaKeepsSorted(Value(), a);
      var inserted := InsertInPlace(antennas, numAntennas, a, AntennaId);
      if !inserted {
        assert antennas[..numAntennas] == old(antennas[..numAntennas]);
        return Some(NonUniqueIdentifiers(AntennaKind, a.id));
      }
      numAntennas := numAntennas + 1;
      return None;
    }

    /**
     * load_building_from_parsed_line: `mine` is false exactly when the line is
     * not a building line; an error stands for the source's report and exit.
     */
    method LoadBuildingFromParsedLine(pl: ParsedLine) returns (mine: bool, err: Option<LoadError>)
      requires Valid() && |pl.tokens| > 0 && numBuildings < buildings.Length
      modifies this, buildings
      ensures Valid()
      ensures buildings == old(buildings) && houses == old(houses) && antennas == old(antennas)
      ensures var o := LoadStructureLine(BuildingKind, pl, old(Value()));
        && mine == !o.NotMine?
        && err == (if o.Failed? then Some(o.error) else None)
        && Value() == (if o.Loaded? then o.scene else old(Value()))
    {
      match DecodeStructure(BuildingKind, pl)
      case WrongKeyword =>
        return false, None;
      case Invalid(e) =>
        return true, Some(e);
      case Decoded(b) =>
        err := AddBuilding(b);
        return true, err;
    }

    /** load_house_from_parsed_line. */
    method LoadHouseFromParsedLine(pl: ParsedLine) returns (mine: bool, err: Option<LoadError>)
      requires Valid() && |pl.tokens| > 0 && numHouses < houses.Length
      modifies this, houses
      ensures Valid()
      ensures buildings == old(buildings) && houses == old(houses) && antennas == old(antennas)
      ensures var o := LoadStructureLine(HouseKind, pl, old(Value()));
        && mine == !o.NotMine?
        && err == (if o.Failed? then Some(o.error) else None)
        && Value() == (if o.Loaded? then o.scene else old(Value()))
    {
      match DecodeStructure(HouseKind, pl)
      case WrongKeyword =>
        return false, None;
      case Invalid(e) =>
        return true, Some(e);
      case Decoded(h) =>
        err := AddHouse(h);
        return true, err;
    }

    /** load_antenna_from_parsed_line. */
    method LoadAntennaFromParsedLine(pl: ParsedLine) returns (mine: bool, err: Option<LoadError>)
      requires Valid() && |pl.tokens| > 0 && numAntennas < antennas.Length
      modifies this, antennas
      ensures Valid()
      ensures buildings == old(buildings) && houses == old(houses) && antennas == old(antennas)
      ensures var o := LoadAntennaLine(pl, old(Value()));
        && mine == !o.NotMine?
        && err == (if o.Failed? then Some(o.error) else None)
        && Value() == (if o.Loaded? then o.scene else old(Value()))
    {
      match DecodeAntenna(pl)
      case WrongKeyword =>
        return false, None;
      case Invalid(e) =>
        return true, Some(e);
      case Decoded(a) =>
        err := AddAntenna(a);
        return true, err;
    }

    /** scene_is_empty */
    predicate IsEmpty()
      reads this, buildings, houses, antennas
      requires Valid()
      ensures IsEmpty() <==> Value() == EmptyScene
    {
      numBuildings == 0 && numHouses == 0 && numAntennas == 0
    }

    /**
     * validate_buildings: true exactly when two buildings overlap; then the
     * error names the first such pair in loop order, else it is left as it was.
     */
    method ValidateBuildings(error: ValidationError) returns (found: bool, error': ValidationError)
      requires Valid()
      ensures found <==> HasPair(Value().buildings, AreStructuresOverlapping)
      ensures found ==> ReportsBuildingPair(Value().buildings, error')
      ensures !found ==> error' == error
    {
      var i, j;
      found, i, j := FindFirstPair(buildings, numBuildings, AreStructuresOverlapping);
      error' := if found then ValidationError(true, BuildingsOverlapping(buildings[i].id, buildings[j].id)) else error;
    }

    /** validate_houses */
    method ValidateHouses(error: ValidationError) returns (found: bool, error': ValidationError)
      requires Valid()
      ensures found <==> HasPair(Value().houses, AreStructuresOverlapping)
      ensures found ==> ReportsHousePair(Value().houses, error')
      ensures !found ==> error' == error
    {
      var i, j;
      found, i, j := FindFirstPair(houses, numHouses, AreStructuresOverlapping);
      error' := if found then ValidationError(true, HousesOverlapping(houses[i].id, houses[j].id)) else error;
    }

    /** validate_buildings_houses_overlap */
    method ValidateBuildingsHousesOverlap(error: ValidationError) returns (found: bool, error': ValidationError)
      requires Valid()
      ensures found <==> HasCrossPair(Value().buildings, Value().houses, AreStructuresOverlapping)
      ensures found ==> ReportsCrossPair(Value().buildings, Value().houses, error')
      ensures !found ==> error' == error
    {
      var i, j;
      found, i, j := FindFirstCrossPair(buildings, numBuildings, houses, numHouses, AreStructuresOverlapping);
      error' := if found then ValidationError(true, BuildingsOverlapping(buildings[i].id, houses[j].id)) else error;
    }

    /** validate_structures_overlaps: buildings, then houses, then building/house pairs; the first hit wins. */
    method ValidateStructuresOverlaps(error: ValidationError) returns (found: bool, error': ValidationError)
      requires Valid()
      ensures var sv := Value();
        found <==> HasPair(sv.buildings, AreStructuresOverlapping) || HasPair(sv.houses, AreStructuresOverlapping) ||
                   HasCrossPair(sv.buildings, sv.houses, AreStructuresOverlapping)
      ensures var sv := Value();
        if HasPair(sv.buildings, AreStructuresOverlapping) then ReportsBuildingPair(sv.buildings, error')
        else if HasPair(sv.houses, AreStructuresOverlapping) then ReportsHousePair(sv.houses, error')
        else if HasCrossPair(sv.buildings, sv.houses, AreStructuresOverlapping) then ReportsCrossPair(sv.buildings, sv.houses, error')
        else error' == error
    {
      found, error' := ValidateBuildings(error);
      if !found {
        found, error' := ValidateHouses(error);
        if !found {
          found, error' := ValidateBuildingsHousesOverlap(error);
        }
      }
    }

    /** validate_antennas: true exactly when two antennas share a position; the first pair is reported. */
    method ValidateAntennas(error: ValidationError) returns (found: bool, error': ValidationError)
      requires Valid()
      ensures found <==> HasPair(Value().antennas, HaveAntennasSamePosition)
      ensures found ==> ReportsAntennaPair(Value().antennas, error')
      ensures !found ==> error' == error
    {
      var i, j;
      found, i, j := FindFirstPair(antennas, numAntennas, HaveAntennasSamePosition);
      error' := if found then ValidationError(true, AntennasSamePosition(antennas[i].id, antennas[j].id)) else error;
    }

    /**
     * The computation of print_scene_bounding_box: None for an empty scene,
     * otherwise the seed bounds pushed out over every building and then every
     * antenna (houses are not visited).
     */
    method BoundingBox() returns (r: Option<Box>)
      requires Valid()
      ensures r.None? <==> IsEmpty()
      ensures r.Some? ==> r.value == Hull(SeedBox, Extents(Value()))
    {
      if numBuildings == 0 && numHouses == 0 && numAntennas == 0 {
        return None;
      }
      var bounds := ExtendOverStructures(buildings, numBuildings, SeedBox);
      bounds := ExtendOverAntennas(antennas, numAntennas, bounds);
      HullAppend(SeedBox, StructureBoxes(buildings[..numBuildings]), AntennaBoxes(antennas[..numAntennas]));
      r := Some(bounds);
    }
  }
}

=== FILE: store.dfy ===
/**
 * The sorted, identifier-unique store behind add_building and add_antenna:
 * scan to the first element whose identifier is not below the new one,
 * refuse an equal identifier, otherwise shift the tail right by one and
 * place the new element in the gap.
 */
module Store {
  import opened Wrappers
  import opened IdOrder

  /** Identifiers strictly ascending in strcmp order (and therefore unique). */
  ghost predicate SortedBy<T>(s: seq<T>, key: T -> string)
  {
    forall i, j :: 0 <= i < j < |s| ==> Less(key(s[i]), key(s[j]))
  }

  /** The position the scan loop stops at: the first element not below `k`. */
  function Position<T>(s: seq<T>, k: string, key: T -> string): (p: nat)
    ensures p <= |s|
    ensures forall i :: 0 <= i < p ==> Less(key(s[i]), k)
    ensures p < |s| ==> !Less(key(s[p]), k)
  {
    if |s| == 0 || !Less(key(s[0]), k) then 0 else 1 + Position(s[1..], k, key)
  }

  /** The store after adding `x`, or None when an element with the same identifier stops the scan. */
  function InsertSorted<T>(s: seq<T>, x: T, key: T -> string): (r: Option<seq<T>>)
    ensures r.None? ==> exists i :: 0 <= i < |s| && key(s[i]) == key(x)
    ensures r.Some? ==> |r.value| == |s| + 1 && multiset(r.value) == multiset(s) + multiset{x}
  {
    var p := Position(s, key(x), key);
    if p < |s| && key(s[p]) == key(x) then None
    else
      assert s == s[..p] + s[p..];
      Some(s[..p] + [x] + s[p..])
  }

  /** On a sorted store, the scan stops at an equal identifier exactly when the identifier is present. */
  lemma InsertSortedRefusesDuplicates<T>(s: seq<T>, x: T, key: T -> string)
    requires SortedBy(s, key)
    ensures InsertSorted(s, x, key).None? <==> exists i :: 0 <= i < |s| && key(s[i]) == key(x)
  {
    var k := key(x);
    var p := Position(s, k, key);
    LessIrreflexive(k);
  }

  /** Placing `x` between the elements below it and the elements above it keeps the store ascending. */
  lemma SortedInsertAt<T>(s: seq<T>, x: T, key: T -> string, p: nat)
    requires SortedBy(s, key) && p <= |s|
    requires forall i :: 0 <= i < p ==> Less(key(s[i]), key(x))
    requires p < |s| ==> Less(key(x), key(s[p]))
    ensures SortedBy(s[..p] + [x] + s[p..], key)
  {
    var k := key(x);
    var r := s[..p] + [x] + s[p..];
    forall i, j | 0 <= i < j < |r|
      ensures Less(key(r[i]), key(r[j]))
    {
      if j < p {
        assert r[i] == s[i] && r[j] == s[j];
      } else if j == p {
        assert r[i] == s[i] && r[j] == x;
      } else if i == p {
        assert r[j] == s[j - 1];
        if j - 1 > p {
          LessTransitive(k, key(s[p]), key(s[j - 1]));
        }
      } else if i < p {
        assert r[i] == s[i] && r[j] == s[j - 1];
      } else {
        assert r[i] == s[i - 1] && r[j] == s[j - 1];
      }
    }
  }

  /**
   * On a sorted store without the new identifier, the result is one longer,
   * still strictly ascending, holds the new element, and removing it gives
   * back the old store in its old order.
   */
  lemma InsertSortedKeepsOrder<T>(s: seq<T>, x: T, key: T -> string)
    requires SortedBy(s, key)
    requires forall i :: 0 <= i < |s| ==> key(s[i]) != key(x)
    ensures InsertSorted(s, x, key).Some?
    ensures var r := InsertSorted(s, x, key).value;
      && |r| == |s| + 1
      && SortedBy(r, key)
      && multiset(r) == multiset(s) + multiset{x}
      && exists p :: 0 <= p < |r| && r[p] == x && r[..p] + r[p + 1..] == s
  {
    var k := key(x);
    var p := Position(s, k, key);
    var r := s[..p] + [x] + s[p..];
    assert InsertSorted(s, x, key) == Some(r);
    if p < |s| {
      LessTotal(key(s[p]), k);
    }
    SortedInsertAt(s, x, key, p);
    assert s == s[..p] + s[p..];
    assert r[p] == x && r[..p] == s[..p] && r[p + 1..] == s[p..];
  }

  /** In a strictly ascending store, the first element is below every other element. */
  lemma SortedHeadLeast<T>(a: seq<T>, x: T, key: T -> string)
    requires SortedBy(a, key) && |a| > 0 && x in a
    ensures x == a[0] || Less(key(a[0]), key(x))
  {
    var i :| 0 <= i < |a| && a[i] == x;
  }

  /** Dropping the first element of a strictly ascending store leaves a strictly ascending store. */
  lemma SortedTail<T>(a: seq<T>, key: T -> string)
    requires SortedBy(a, key) && |a| > 0
    ensures SortedBy(a[1..], key)
  {
    forall i, j | 0 <= i < j < |a[1..]|
      ensures Less(key(a[1..][i]), key(a[1..][j]))
    {
      assert a[1..][i] == a[i + 1] && a[1..][j] == a[j + 1];
    }
  }

  /** The multiset of a nonempty sequence's tail is its multiset without the head. */
  lemma MultisetTail<T>(a: seq<T>)
    requires |a| > 0
    ensures multiset(a[1..]) == multiset(a) - multiset{a[0]}
  {
    assert a == [a[0]] + a[1..];
  }

  /** A strictly ascending store is determined by its elements: two of them holding the same multiset are equal. */
  lemma {:induction false} SortedUnique<T>(a: seq<T>, b: seq<T>, key: T -> string)
    requires SortedBy(a, key) && SortedBy(b, key)
    requires multiset(a) == multiset(b)
    ensures a == b
    decreases |a|
  {
    if |a| == 0 {
      assert |multiset(b)| == 0;
    } else {
      assert |b| > 0 by { assert |multiset(b)| == |multiset(a)|; }
      assert a[0] in multiset(b) && b[0] in multiset(a);
      SortedHeadLeast(a, b[0], key);
      SortedHeadLeast(b, a[0], key);
      if a[0] != b[0] {
        LessAsymmetric(key(a[0]), key(b[0]));
      }
      MultisetTail(a);
      MultisetTail(b);
      SortedTail(a, key);
      SortedTail(b, key);
      SortedUnique(a[1..], b[1..], key);
      assert a == [a[0]] + a[1..] && b == [b[0]] + b[1..];
    }
  }

  /** The scan position is the only index with every element before it below `k` and the element at it not below. */
  lemma {:induction false} PositionUnique<T>(s: seq<T>, k: string, key: T -> string, b: nat)
    requires b <= |s|
    requires forall i :: 0 <= i < b ==> Less(key(s[i]), k)
    requires b < |s| ==> !Less(key(s[b]), k)
    ensures Position(s, k, key) == b
  {
    if b > 0 {
      assert Less(key(s[0]), k);
      PositionUnique(s[1..], k, key, b - 1);
    }
  }

  /** The array after the shift and the placement, read as a sequence, is the inserted store. */
  lemma ShiftedIsInsert<T>(t: seq<T>, s: seq<T>, x: T, b: nat)
    requires b <= |s| && |t| == |s| + 1
    requires forall k :: 0 <= k < b ==> t[k] == s[k]
    requires t[b] == x
    requires forall k :: b < k < |t| ==> t[k] == s[k - 1]
    ensures t == s[..b] + [x] + s[b..]
  {
  }

  /**
   * add_building / add_antenna on the array itself: `n` elements are in use
   * and there is room for one more. A duplicate is refused before anything
   * moves.
   */
  method InsertInPlace<T>(a: array<T>, n: nat, x: T, key: T -> string) returns (inserted: bool)
    requires n < a.Length
    modifies a
    ensures inserted <==> InsertSorted(old(a[..n]), x, key).Some?
    ensures inserted ==> a[..n + 1] == InsertSorted(old(a[..n]), x, key).value
    ensures !inserted ==> a[..] == old(a[..])
    ensures forall k :: n < k < a.Length ==> a[k] == old(a[k])
  {
    ghost var s := a[..n];
    var b := 0;
    while b < n && Less(key(a[b]), key(x))
      invariant 0 <= b <= n
      invariant forall i :: 0 <= i < b ==> Less(key(a[i]), key(x))
    {
      b := b + 1;
    }
    PositionUnique(s, key(x), key, b);
    if b < n && key(a[b]) == key(x) {
      return false;
    }
    var j := n;
    while j > b
      invariant b <= j <= n
      invariant forall k :: 0 <= k < j ==> a[k] == old(a[k])
      invariant forall k :: j < k <= n ==> a[k] == old(a[k - 1])
      invariant forall k :: n < k < a.Length ==> a[k] == old(a[k])
    {
      a[j] := a[j - 1];
      j := j - 1;
    }
    a[b] := x;
    ShiftedIsInsert(a[..n + 1], s, x, b);
    return true;
  }
}

=== FILE: tokenizer.dfy ===
/**
 * parse_line: strtok over the delimiter " ". Tokens are the maximal runs of
 * non-space characters, in order; leading, trailing and repeated spaces
 * produce no token. Only the space character separates tokens.
 */
module Tokenizer {
  import opened Entities

  /** The tokens of `s`, when the token being built so far is `cur`. */
  function SplitFrom(s: string, cur: string): seq<string>
  {
    if |s| == 0 then (if |cur| == 0 then [] else [cur])
    else if s[0] == ' ' then (if |cur| == 0 then [] else [cur]) + SplitFrom(s[1..], [])
    else SplitFrom(s[1..], cur + [s[0]])
  }

  /** The tokens of a line. */
  function Tokens(line: string): seq<string>
  {
    SplitFrom(line, [])
  }

  /** A token: non-empty and free of spaces. */
  predicate IsToken(t: string)
  {
    |t| > 0 && ' ' !in t
  }

  /** The tokens written one after another, with nothing between them. */
  function Concat(toks: seq<string>): string
  {
    if |toks| == 0 then [] else toks[0] + Concat(toks[1..])
  }

  /** The line with every space removed. */
  function RemoveSpaces(s: string): string
  {
    if |s| == 0 then [] else (if s[0] == ' ' then [] else [s[0]]) + RemoveSpaces(s[1..])
  }

  /** The tokens written one after another, separated by single spaces. */
  function Join(toks: seq<string>): string
  {
    if |toks| == 0 then [] else if |toks| == 1 then toks[0] else toks[0] + " " + Join(toks[1..])
  }

  lemma {:induction false} SplitFromWellFormed(s: string, cur: string)
    requires ' ' !in cur
    ensures forall k :: 0 <= k < |SplitFrom(s, cur)| ==> IsToken(SplitFrom(s, cur)[k])
  {
    if |s| > 0 {
      if s[0] == ' ' {
        SplitFromWellFormed(s[1..], []);
      } else {
        SplitFromWellFormed(s[1..], cur + [s[0]]);
      }
    }
  }

  /** Every token is non-empty and holds no space. */
  lemma TokensWellFormed(line: string)
    ensures forall k :: 0 <= k < |Tokens(line)| ==> IsToken(Tokens(line)[k])
  {
    SplitFromWellFormed(line, []);
  }

  lemma {:induction false} ConcatAppend(a: seq<string>, b: seq<string>)
    ensures Concat(a + b) == Concat(a) + Concat(b)
  {
    if |a| > 0 {
      assert (a + b)[1..] == a[1..] + b;
      ConcatAppend(a[1..], b);
    } else {
      assert a + b == b;
    }
  }

  lemma {:induction false} SplitFromCover(s: string, cur: string)
    ensures Concat(SplitFrom(s, cur)) == cur + RemoveSpaces(s)
  {
    if |s| > 0 {
      if s[0] == ' ' {
        SplitFromCover(s[1..], []);
        var first: seq<string> := if |cur| == 0 then [] else [cur];
        ConcatAppend(first, SplitFrom(s[1..], []));
        assert Concat(first) == cur by {
          if |cur| > 0 {
            assert first[1..] == [];
          }
        }
      } else {
        SplitFromCover(s[1..], cur + [s[0]]);
      }
    }
  }

  /** No character is lost or invented: the tokens hold exactly the non-space characters of the line, in order. */
  lemma TokensCoverLine(line: string)
    ensures Concat(Tokens(line)) == RemoveSpaces(line)
  {
    SplitFromCover(line, []);
  }

  lemma {:induction false} SplitFromToken(t: string, rest: string, cur: string)
    requires ' ' !in t
    ensures SplitFrom(t + rest, cur) == SplitFrom(rest, cur + t)
  {
    if |t| > 0 {
      assert (t + rest)[0] == t[0];
      assert (t + rest)[1..] == t[1..] + rest;
      SplitFromToken(t[1..], rest, cur + [t[0]]);
      assert cur + [t[0]] + t[1..] == cur + t;
    } else {
      assert t + rest == rest && cur + t == cur;
    }
  }

  /** Splitting the tokens joined by single spaces gives the same tokens back. */
  lemma {:induction false} TokensOfJoin(toks: seq<string>)
    requires forall k :: 0 <= k < |toks| ==> IsToken(toks[k])
    ensures Tokens(Join(toks)) == toks
  {
    if |toks| == 1 {
      assert toks[0] + [] == toks[0] && [] + toks[0] == toks[0];
      SplitFromToken(toks[0], [], []);
      assert toks == [toks[0]];
    } else if |toks| > 1 {
      var rest := " " + Join(toks[1..]);
      SplitFromToken(toks[0], rest, []);
      assert Join(toks) == toks[0] + rest;
      assert rest[1..] == Join(toks[1..]);
      TokensOfJoin(toks[1..]);
      assert [] + toks[0] == toks[0];
    }
  }

  lemma {:induction false} SplitFromAtSpace(a: string, b: string, cur: string)
    ensures SplitFrom(a + " " + b, cur) == SplitFrom(a, cur) + SplitFrom(b, [])
    decreases |a|
  {
    if |a| == 0 {
      assert a + " " + b == [' '] + b;
      assert ([' '] + b)[1..] == b;
    } else {
      assert (a + " " + b)[0] == a[0];
      assert (a + " " + b)[1..] == a[1..] + " " + b;
      if a[0] == ' ' {
        SplitFromAtSpace(a[1..], b, []);
      } else {
        SplitFromAtSpace(a[1..], b, cur + [a[0]]);
      }
    }
  }

  /**
   * A space always ends a token: the tokens of two pieces of text with a
   * space between them are the tokens of the first followed by those of the
   * second, whatever spaces either begins or ends with.
   */
  lemma TokensSplitAtSpace(a: string, b: string)
    ensures Tokens(a + " " + b) == Tokens(a) + Tokens(b)
  {
    SplitFromAtSpace(a, b, []);
  }

  /** A run of non-space characters is a single token. */
  lemma TokenAlone(t: string)
    requires IsToken(t)
    ensures Tokens(t) == [t]
  {
    TokensOfJoin([t]);
  }

  /** parse_line: the tokens of the line, tagged with its number. */
  method ParseLine(line: string, lineNumber: int) returns (pl: ParsedLine)
    ensures pl == ParsedLine(Tokens(line), lineNumber)
  {
    var toks: seq<string> := [];
    var cur: string := [];
    var i := 0;
    while i < |line|
      invariant 0 <= i <= |line|
      invariant toks + SplitFrom(line[i..], cur) == Tokens(line)
    {
      assert line[i..][1..] == line[i + 1..];
      if line[i] == ' ' {
        if |cur| > 0 {
          toks := toks + [cur];
          cur := [];
        }
      } else {
        cur := cur + [line[i]];
      }
      i := i + 1;
    }
    if |cur| > 0 {
      toks := toks + [cur];
    }
    pl := ParsedLine(toks, lineNumber);
  }
}

=== FILE: validation.dfy ===
/**
 * Token validators of src/validation.c: identifiers, integers and positive
 * integers. Each validator is specified by a predicate stating the regular
 * language it accepts, and implemented as a left-to-right scan with early
 * returns, proved to agree with that predicate.
 *
 * Strings are the characters of a C string up to (and excluding) its NUL
 * terminator; the character classes are those of the C locale (ASCII).
 */
module Validation {

  // Character classes (isalpha, isdigit, isalnum in the C locale)

  predicate IsAlpha(c: char) { ('a' <= c <= 'z') || ('A' <= c <= 'Z') }

  predicate IsDigit(c: char) { '0' <= c <= '9' }

  predicate IsNonZeroDigit(c: char) { '1' <= c <= '9' }

  predicate IsAlnum(c: char) { IsAlpha(c) || IsDigit(c) }

  /** A character that may start an identifier: `[A-Za-z_]`. */
  predicate IsIdStart(c: char) { IsAlpha(c) || c == '_' }

  /** A character that may continue an identifier: `[A-Za-z0-9_]`. */
  predicate IsIdChar(c: char) { IsAlnum(c) || c == '_' }

  // The accepted languages

  /** `[A-Za-z_][A-Za-z0-9_]*` */
  predicate ValidId(s: string) {
    |s| > 0 && IsIdStart(s[0]) && forall k :: 0 <= k < |s| ==> IsIdChar(s[k])
  }

  /** `[0-9]*` */
  predicate AllDigits(s: string) {
    forall k :: 0 <= k < |s| ==> IsDigit(s[k])
  }

  /** `[1-9][0-9]*` */
  predicate ValidPositiveInteger(s: string) {
    |s| > 0 && IsNonZeroDigit(s[0]) && AllDigits(s[1..])
  }

  /** `0|-?[1-9][0-9]*` */
  predicate ValidInteger(s: string) {
    || s == "0"
    || ValidPositiveInteger(s)
    || (|s| > 0 && s[0] == '-' && ValidPositiveInteger(s[1..]))
  }

  // The validators as the source runs them

  /** is_valid_id: first character a letter or '_', every character a letter, digit or '_'. */
  method IsValidId(s: string) returns (ok: bool)
    ensures ok <==> ValidId(s)
  {
    if |s| == 0 || (!IsAlpha(s[0]) && s[0] != '_') {
      return false;
    }
    var i := 0;
    while i < |s|
      invariant 0 <= i <= |s|
      invariant forall k :: 0 <= k < i ==> IsIdChar(s[k])
    {
      if !IsAlnum(s[i]) && s[i] != '_' {
        return false;
      }
      i := i + 1;
    }
    return true;
  }

  /** The loop shared by both numeric validators: every character from `i` on is a digit. */
  method DigitsFrom(s: string, i: nat) returns (ok: bool)
    requires i <= |s|
    ensures ok <==> AllDigits(s[i..])
  {
    var k := i;
    while k < |s|
      invariant i <= k <= |s|
      invariant forall m :: i <= m < k ==> IsDigit(s[m])
    {
      if !IsDigit(s[k]) {
        return false;
      }
      k := k + 1;
    }
    return true;
  }

  /** is_valid_integer: "0", or an optional '-' then a non-zero digit then digits. */
  method IsValidInteger(s: string) returns (ok: bool)
    ensures ok <==> ValidInteger(s)
  {
    if |s| == 1 && s[0] == '0' {
      return true;
    }
    var i := 0;
    if i < |s| && s[i] == '-' {
      i := i + 1;
    }
    if i == |s| || s[i] < '1' || s[i] > '9' {
      return false;
    }
    ok := DigitsFrom(s, i + 1);
    assert s[i..][1..] == s[i + 1..];
    assert i == 1 ==> s[1..] == s[i..];
  }

  /** is_valid_positive_integer: a non-zero digit then digits. */
  method IsValidPositiveInteger(s: string) returns (ok: bool)
    ensures ok <==> ValidPositiveInteger(s)
  {
    if |s| == 0 || s[0] < '1' || s[0] > '9' {
      return false;
    }
    ok := DigitsFrom(s, 1);
  }

  // Relationships between the three languages

  /** Every valid positive integer is also a valid integer. */
  lemma PositiveIsInteger(s: string)
    requires ValidPositiveInteger(s)
    ensures ValidInteger(s)
  {
  }

  /** No string is both an identifier and an integer: their first characters differ. */
  lemma IdIsNotInteger(s: string)
    ensures !(ValidId(s) && ValidInteger(s))
  {
  }

  /**
   * Digits 2 to 9 are identifier characters, although the documentation of
   * is_valid_id writes the class as `[a-zA-Z0-1_]`.
   */
  lemma IdAcceptsAllDigits()
    ensures ValidId("b29") && ValidId("_7")
    ensures forall c: char :: '2' <= c <= '9' ==> ValidId(['a', c])
    ensures !ValidId("") && !ValidId("9b") && !ValidId("a-b")
  {
    assert !IsIdChar("a-b"[1]);
  }

  /** The strings the integer validator turns away. */
  lemma IntegerRejections()
    ensures !ValidInteger("") && !ValidInteger("-") && !ValidInteger("-0")
    ensures !ValidInteger("007") && !ValidInteger("+5")
    ensures ValidInteger("0") && ValidInteger("-12") && ValidInteger("40")
  {
  }
}

=== FILE: wrappers.dfy ===
/** Option and Result, the typed replacements for the source's exit-on-error paths. */
module Wrappers {

  datatype Option<+T> = None | Some(value: T)

  datatype Result<+R, +E> = Ok(value: R) | Err(error: E)
}
